=== FILE: README.md ===
# cafeflow in Dafny

A model of the logic at the core of cafeflow, a café ordering app.
Customers browse the menu, fill a cart and place an order. Staff work a live
queue of orders and move each one through five statuses. Admins maintain the
menu. A Socket.IO server pushes every new order to the staff, and every status
change to the staff and to the customer who placed the order.

The model covers both halves of the app:

- **Server.**
  - The HTTP authorisation gate (`authRequired` followed by `roleRequired`).
  - The staff namespace handshake, the `joinOrder` handler and room
    membership.
  - Which socket is sent which event.
  - The order routes: validation, a snapshot of the order's items taken from
    the available menu, the public projection, create, get, list and status
    change.
  - The menu routes: validation with defaults and trimming, the public and
    admin listings, create, partial update and delete.
  - The invariants of the two stores.
- **Web pages.** The state updates hidden in three pages:
  - the staff dashboard's live queue;
  - the customer's cart, order lines, total, order body and live tracking;
  - the admin menu list, with its gate, availability toggle, delete and
    create button.
  - Both menu pages also group items by category.

Stores are maps from id to record. A route is a pure function from the store,
the request and its parameters to a result. That result is either an error
(status and message) or the new store together with the answer and the list
of socket emits the route makes after its write. The realtime server is a
registry of sockets (namespace, user, rooms). Connect, join and disconnect are
operations on it. `ReceivedBy` gives, in order, what one socket is sent for a
sequence of emits.

These things become parameters:

- token verification: `verify: string -> Option<Claims>`;
- the 7-character random id behind an order number;
- new record ids;
- the clock.

JSON request bodies are modelled field by field as `Value`: absent, a string,
an integer, a non-integral number, a boolean, or anything else.

Files:

- `common.dfy`: `Option`, `Result`, `HttpError`, `Value`, JavaScript's
  `trim` and whitespace set, ASCII case mapping, string order.
- `sorting.dfy`: sorting the keys of a store by a total preorder. This is what
  a query's `sort` hands back.
- `domain.dfy`: statuses, order lines, the public order, claims and principal.
- `auth.dfy`: the HTTP gate.
- `realtime.dfy`: the Socket.IO namespaces, rooms and deliveries.
- `orders.dfy`: the order routes.
- `menu.dfy`: the menu routes.
- `grouping.dfy`: category grouping.
- `staffboard.dfy`: the staff dashboard page.
- `customer.dfy`: the customer ordering page.
- `adminmenu.dfy`: the admin menu page.

## Behaviour of the code worth knowing

- **A status change also updates `updatedAt`.** The status route sets only
  `status` (server/src/routes/staff.js:41). The order schema has timestamps
  enabled (server/src/models/Order.js:25), so `findByIdAndUpdate` also
  refreshes `updatedAt`. `Orders.UpdateStatus` states that the stored record
  changes in exactly `status` and `updatedAt`.
- **An order line needs a non-empty name.** The line schema marks `name`
  required (server/src/models/Order.js:6), and Mongoose's `required` refuses
  "". So an order for an available menu item whose stored name is "" is
  refused when the record is created. The error has no status code, so the
  answer is 500 (`Orders.BlankNamedItemRefused`).
- **A category named like an inherited object member breaks the grouping.**
  Both menu pages group into a plain object (`byCat[cat] || []`). For a
  category such as `constructor` or `toString` the lookup finds the inherited
  function, and pushing onto it throws (`Grouping.PageGroups`).
- **A menu update can store a blank name.** The model reads the update
  route's `MenuItemSchema.partial()` with zod 3's meaning: it applies no
  defaults, so an omitted field stays untouched. The record's setters trim on
  update too. The record's validators, however, do not run on update. So a
  `PUT` with name `"  "` passes the length check and is stored as `""`. The
  same name on create passes the length check too, but then fails the
  record's `required` check after trimming. It is answered with 500, not 400
  (`Menu.CreateItem`, `Menu.BlankNameCreateVsUpdate`).
- **The socket handshake and the HTTP gate parse the Authorization header
  differently.**
  - The socket path strips `bearer` in any letter case plus all whitespace
    after it, and keeps any other header verbatim.
  - The HTTP path needs exactly `Bearer ` and keeps the rest.
  - Both are modelled as written. The lemmas `Realtime.HeaderParsingAgrees`,
    `Realtime.LowerCaseSchemeDiffers`, `Realtime.ExtraWhitespaceDiffers` and
    `Realtime.NoSchemeDiffers` state where the two agree and where they
    differ.

## Model

| member | source | states |
|---|---|---|
| HttpAuth.BearerToken | server/src/middleware/auth.js:4-5 | a token is found only when the header starts with exactly `Bearer `, and it is the whole remainder |
| HttpAuth.AuthRequired | server/src/middleware/auth.js:3-15 | 401 "Missing access token" iff no non-empty token; 401 "Invalid/expired access token" iff the token does not verify; otherwise the user is `{id: sub, role}` of the verified claims |
| HttpAuth.RoleRequired | server/src/middleware/auth.js:17-23 | 401 "Unauthorized" iff there is no user; 403 "Forbidden" iff the role is not listed; otherwise the user passes unchanged |
| HttpAuth.Guard | server/src/middleware/auth.js:3-23 | a request passes only with a listed role, as the principal `authRequired` built; every refusal is one of the three gate errors |
| HttpAuth.GuardCharacterised | server/src/middleware/auth.js:3-23 | passing the gate ⇔ the header is `Bearer <t>` with non-empty `t` verifying to a listed role; the only 403 is a verified token with an unlisted role |
| HttpAuth.BarePrefixIsMissing | server/src/middleware/auth.js:4-6 | a missing header and a header of exactly `Bearer ` both give "Missing access token" |
| Realtime.StripBearer | server/src/sockets/io.js:18 | a header without a case-insensitive `Bearer`+whitespace prefix is kept verbatim; otherwise what is removed is the scheme and whitespace only, and the rest starts with no whitespace |
| Realtime.SocketToken | server/src/sockets/io.js:17-18 | the token is the auth field when it is non-empty, otherwise the header (or "") with the scheme stripped |
| Realtime.StaffHandshake | server/src/sockets/io.js:16-30 | "Missing token" iff the token is empty; "Invalid token" iff it does not verify; "Forbidden" iff its role is neither admin nor staff; otherwise the principal `{id: sub, role}` with a staff role |
| Realtime.ConnectStaff | server/src/sockets/io.js:16-35 | a refused socket leaves the registry unchanged and is sent nothing; an admitted one records its user, is in room "staff", is sent exactly `staffHello` with its role, and no other socket changes; registry validity is kept |
| Realtime.ConnectOrders | server/src/sockets/io.js:38-39 | a public socket needs no token, has no user and is in no room, in particular not "staff"; validity is kept |
| Realtime.JoinOrder | server/src/sockets/io.js:40-44 | a string of more than five characters adds exactly room `order:<id>`; any other payload, or a staff socket, changes nothing; other sockets are untouched; validity is kept |
| Realtime.JoinIdempotent | server/src/sockets/io.js:41-43 | joining the same order twice is joining once |
| Realtime.OrderRoomInjective | server/src/sockets/io.js:42 | two order ids share a room iff they are equal |
| Realtime.Disconnect | server/src/sockets/io.js:38-45 | a disconnected socket is in no room of any namespace and the other sockets are unchanged (Socket.IO's own behaviour, made an explicit step) |
| Realtime.DisconnectSilences | server/src/sockets/io.js:38-45 | after disconnecting, a socket is sent nothing whatever is emitted |
| Realtime.FanOut | server/src/routes/orders.js:68 | one emit reaches exactly the sockets of its namespace that are in its room, each once, and a socket is reached iff `ReceivedBy` gives it that emit's event |
| Realtime.ReceivedBy | server/src/routes/staff.js:47-48 | a socket is sent at most one event per emit, and only events of emits to a room it is in |
| Realtime.CreatedAudience | server/src/routes/orders.js:66-68 | the create route's one emit (`CreatedEmits`): `orderCreated` reaches every staff socket exactly once and no public socket |
| Realtime.UpdatedAudience | server/src/routes/staff.js:47-48 | the status route's two emits (`UpdatedEmits`): `orderUpdated` reaches every staff socket once, and a public socket once iff it joined that order's room |
| Realtime.OtherOrderSilent | server/src/routes/staff.js:48 | a public socket that joined only other orders' rooms is sent nothing about this order |
| Realtime.StaffRoomPrivileged | server/src/sockets/io.js:24-33 | every member of room "staff" is a staff-namespace socket whose user has role admin or staff |
| Realtime.UpdatesInOrder | server/src/routes/staff.js:47-48 | two status changes of one order reach a socket in its room in the order they were made, once each |
| Realtime.HeaderParsingAgrees | server/src/sockets/io.js:17-18 | for `Bearer <t>` with `t` not starting with whitespace, both paths verify `t`, and the staff namespace admits exactly when the staff routes do |
| Realtime.LowerCaseSchemeDiffers | server/src/sockets/io.js:18 | `bearer abc` gives the socket the token `abc` but gives HTTP "Missing access token" |
| Realtime.ExtraWhitespaceDiffers | server/src/sockets/io.js:18 | after `Bearer \t`, the socket path drops all the whitespace while the HTTP path keeps the tab in the token |
| Realtime.NoSchemeDiffers | server/src/sockets/io.js:18 | a header with no scheme is used verbatim by the socket path but finds no token on the HTTP path |
| Realtime.StaffSeesCreatedOrder | server/src/sockets/io.js:32-35 | a staff socket admitted with a valid token is sent a created order exactly once |
| Realtime.CustomerIgnoresOtherOrder | server/src/sockets/io.js:40-44 | a customer that joined one order hears nothing of another order's update |
| Realtime.ExpiredTokenRejected | server/src/sockets/io.js:27-28 | a token that does not verify is refused with "Invalid token" and the registry is unchanged |
| Domain.ParseStatus | server/src/routes/staff.js:31-33 | exactly the five wire names are accepted, each as its own status |
| Domain.ParseStatusName | server/src/routes/staff.js:31-33 | every status's wire name parses back to it |
| Domain.StatusFlowComplete | web/src/pages/Staff.tsx:12 | the selector's list holds each of the five statuses exactly once |
| Common.Trim | server/src/models/MenuItem.js:5-7 | the result neither starts nor ends with whitespace and is no longer than the input |
| Common.TrimKeepsInnerSlice | server/src/models/MenuItem.js:5-7 | for `a` the position of the first non-whitespace character, the result is the input's characters from `a` on, in order, and everything after them in the input is whitespace |
| Common.TrimBlank | server/src/models/MenuItem.js:5 | a string trims to "" iff every character is whitespace |
| Common.TrimIdempotent | server/src/models/MenuItem.js:5-7 | trimming a stored value again changes nothing |
| Common.UpperAscii | server/src/routes/orders.js:57 | same length; each of a-z becomes the matching A-Z; every other character unchanged |
| Sorting.SortKeysBy | server/src/routes/staff.js:26 | every key of the store exactly once, with their records in the requested order |
| Orders.ToPublicForgetsOnlyVersion | server/src/routes/orders.js:20-31 | the projection `ToPublic` of two records is equal iff the records agree on every field except the version key; the staff projection (server/src/routes/staff.js:8-19) is the same function |
| Orders.ParseOrderRequest | server/src/routes/orders.js:9-18 | accepted iff table ≤ 20 and notes ≤ 300 characters (each optional), at least one line, every id ≥ 10 characters and every qty an integer in 1..20; table and notes default to ""; lines keep order and values; otherwise 400 |
| Orders.Snapshot | server/src/routes/orders.js:38-55 | fails with 400 "Menu item unavailable" iff some line's item is missing or hidden; otherwise one line per request line, in order, with its qty and the menu's name and price |
| Orders.CreateOrder | server/src/routes/orders.js:33-71 | succeeds iff body and snapshot succeed and the order number is free; the only new record is NEW, numbered with the upper-cased id, stamped `now`, with the snapshot; the answer is its projection; `orderCreated` with that answer goes to room "staff" only; a snapshot line with an empty name is refused with 500, and a taken order number with the unique index's 500; failures store and emit nothing |
| Orders.BlankNamedItemRefused | server/src/models/Order.js:6 | an order naming an available menu item whose stored name is "" is refused with 500 "Order validation failed" |
| Orders.CreatePersistsBeforeEmit | server/src/routes/orders.js:58-70 | a successful create emits once, and the emitted order is what a later get of its id answers |
| Orders.CreateKeepsStoreWellFormed | server/src/models/Order.js:3-26 | creating keeps every record under its id, with ≥ 1 line, qty in 1..20 and price ≥ 0, and order numbers unique |
| Orders.GetOrder | server/src/routes/orders.js:77-79 | 404 "Not found" iff the id is unknown; otherwise the stored order's projection |
| Orders.ParseStatusBody | server/src/routes/staff.js:40 | accepted iff the body's status is one of the five names; otherwise 400 |
| Orders.UpdateStatus | server/src/routes/staff.js:35-52 | gate errors first, then 400 for a bad status, then 404 for an unknown id, all with nothing emitted; on success only that record changes, in `status` and `updatedAt` only, and the same projection is emitted to "staff" and `order:<id>` and answered; store invariant kept |
| Orders.AnyStatusReachable | server/src/routes/staff.js:40-41 | for a staff caller, any of the five statuses can be set on any stored order, whatever its status |
| Orders.ListingFacts | server/src/routes/staff.js:26 | a prefix of the keys sorted newest first lists distinct stored orders, newest first, and leaves out no order newer than one it lists |
| Orders.StaffOrders | server/src/routes/staff.js:21-29 | staff and admins only; min(50, count) distinct projections of stored orders, newest first, none left out that is newer than one listed |
| Orders.CreateThenPublish | server/src/routes/orders.js:58-70 | after a create, a staff socket is sent exactly the stored order once and a public socket nothing |
| Orders.UpdatePersistsBeforeEmit | server/src/routes/staff.js:41-50 | a successful status change emits twice, and each emitted order is what a later get of its id answers |
| Orders.UpdateThenPublish | server/src/routes/staff.js:41-50 | after a status change, staff sockets and sockets in the order's room are sent exactly the stored order once, others nothing |
| Menu.ParseMenuItem | server/src/routes/menu.js:7-14 | accepted iff name ≥ 2 characters, price an integer ≥ 0 and optional fields well typed; omitted description, category, imageUrl, isAvailable become "", "General", "", true |
| Menu.ParseMenuPatch | server/src/routes/menu.js:52 | every field optional with the same constraints when present; a supplied field is passed on with its value and an omitted one stays omitted |
| Menu.BuildItem | server/src/models/MenuItem.js:3-13 | name, description and category are stored trimmed; a name that trims to "" is refused with the record's 500 error |
| Menu.CreateItem | server/src/routes/menu.js:36-45 | admins only; 400 for a refused body; 500 `NameRequired` for any accepted body whose name trims to ""; success iff the record can be built, which is then the only new entry |
| Menu.CreateItemKeepsStoreWellFormed | server/src/models/MenuItem.js:5-8 | creating keeps every item under its id, trimmed, with price ≥ 0 |
| Menu.CreateItemDefaults | server/src/models/MenuItem.js:5-10 | a created item has a non-blank name and the body's price, and the schema defaults for omitted fields |
| Menu.ApplyPatch | server/src/routes/menu.js:53 | supplied fields are replaced (text ones trimmed), others kept, id and creation time kept, update time refreshed |
| Menu.UpdateItem | server/src/routes/menu.js:47-57 | admins only; 400 for a refused body, then 404 for an unknown id; on success only that item changes, by the patch |
| Menu.DeleteItem | server/src/routes/menu.js:59-68 | admins only; 404 iff the id is unknown; otherwise exactly that item is removed |
| Menu.StaffForbiddenFromAdminRoutes | server/src/routes/menu.js:28-29 | a verified user passes the admin gate iff the role is admin; staff gets 403 |
| Menu.BlankNameCreateVsUpdate | server/src/routes/menu.js:41-53 | a name of blanks is refused on create with 500 but stored as "" through an update |
| Menu.CategoryNameLeTotalPreorder | server/src/routes/menu.js:20 | ordering by category then name is total and transitive |
| Menu.SortedItems | server/src/routes/menu.js:31 | every stored item exactly once, by category then name |
| Menu.PublicMenu | server/src/routes/menu.js:17-23 | exactly the available items, one entry per record, by category then name |
| Menu.AdminMenu | server/src/routes/menu.js:26-34 | admins only; every item, hidden ones included |
| StaffBoard.Filtered | web/src/pages/Staff.tsx:21-24 | no longer than the list, and every shown order matches the filter |
| StaffBoard.FilterAllIsIdentity | web/src/pages/Staff.tsx:22 | "ALL" shows the list unchanged |
| StaffBoard.FilterCounts | web/src/pages/Staff.tsx:23 | a status filter keeps each order of that status as often as it occurs and drops every other order |
| StaffBoard.FilterAppend | web/src/pages/Staff.tsx:23 | filtering distributes over concatenation, so shown orders keep their order |
| StaffBoard.OnOrderCreated | web/src/pages/Staff.tsx:43-45 | the list never exceeds 50 after an insertion |
| StaffBoard.CreatedHeadsBoard | web/src/pages/Staff.tsx:44 | the new order is first, followed by the previous list in order, cut to 50 |
| StaffBoard.OnOrderUpdated | web/src/pages/Staff.tsx:47-49 | same length; entries with the event's id become the payload, all others unchanged, ids in place |
| StaffBoard.UnknownUpdateIgnored | web/src/pages/Staff.tsx:48 | an update for an order not shown leaves the list unchanged |
| StaffBoard.LaterUpdateWins | web/src/pages/Staff.tsx:48 | of two updates for one order the later wins |
| StaffBoard.UpdatesCommute | web/src/pages/Staff.tsx:48 | updates for different orders commute |
| StaffBoard.OnLoad | web/src/pages/Staff.tsx:29-37 | a loaded list replaces the board and clears the error; a failure keeps the list and shows the server's message or "Failed to load staff orders" |
| StaffBoard.OnStatusAnswer | web/src/pages/Staff.tsx:61-69 | on success entries with the requested id become the answered order, others unchanged, error cleared; on failure the list is kept and the message or "Failed to update status" shown |
| StaffBoard.AnswerAndEchoAgree | web/src/pages/Staff.tsx:64-65 | the status answer and its `orderUpdated` echo leave the same board in either order, and the same as either alone |
| StaffBoard.LoadFromServer | web/src/pages/Staff.tsx:29-37 | a staff caller's load shows min(50, stored) orders, all stored, and clears the error; a refused caller keeps the list and shows the gate's message |
| StaffBoard.LoadedBoardStaysBounded | web/src/pages/Staff.tsx:29-49 | a board of at most 50 loaded with at most 50 orders stays at most 50 under any run of live events |
| StaffBoard.ReplayBounded | web/src/pages/Staff.tsx:43-49 | from a list of at most 50, any run of live events keeps it at most 50 |
| StaffBoard.UpdatesKeepIds | web/src/pages/Staff.tsx:47-49 | updates alone never add, drop or move an order |
| Customer.Inc | web/src/pages/CustomerOrder.tsx:59-61 | that item's count rises by one, a missing count counting as 0; other counts unchanged; cart validity kept |
| Customer.Dec | web/src/pages/CustomerOrder.tsx:62-64 | that item's count falls by one but never below 0; other counts unchanged; cart validity kept |
| Customer.DecUndoesInc | web/src/pages/CustomerOrder.tsx:59-64 | adding one then taking one away leaves every count as it was |
| Customer.FindByIdIsLast | web/src/pages/CustomerOrder.tsx:48 | the lookup finds an item iff the menu has one with that id, and then the last such entry |
| Customer.CartItems | web/src/pages/CustomerOrder.tsx:47-55 | one line per item with a positive count, none twice, with that count and the menu's name and price; an item has a line iff its count is positive |
| Customer.Total | web/src/pages/CustomerOrder.tsx:57 | with no negative prices or quantities the total is not negative; its value is pinned by `Customer.TotalAppend` and `Customer.IncAddsPrice` |
| Customer.TotalAppend | web/src/pages/CustomerOrder.tsx:57 | the reduce is additive: the total of two runs of lines is the sum of their totals |
| Customer.IncAddsPrice | web/src/pages/CustomerOrder.tsx:57-61 | one more of an item raises the total by exactly that item's price in cents |
| Customer.PlaceOrder | web/src/pages/CustomerOrder.tsx:66-75 | an empty cart sends nothing and shows "Add at least one item" iff every count is ≤ 0; otherwise the body carries table, notes and per line only id and qty |
| Customer.PayloadAcceptedIff | web/src/pages/CustomerOrder.tsx:71-76 | the server accepts the page's body iff table ≤ 20, notes ≤ 300, and every line has qty ≤ 20 and an id of ≥ 10 characters |
| Customer.SnapshotMatchesCart | web/src/pages/CustomerOrder.tsx:71-76 | when the server's menu still has the items as loaded and available, the server's snapshot equals the cart's lines |
| Customer.JoinAfterPlacing | web/src/pages/CustomerOrder.tsx:80-81 | joining with a 24-character order id puts the new public socket in exactly that order's room |
| Customer.OnlyOwnUpdates | web/src/pages/CustomerOrder.tsx:80-82 | a socket in one order's room receives, for any broadcast history, exactly that order's status changes in order |
| Customer.Shown | web/src/pages/CustomerOrder.tsx:77-82 | the placed order is shown until an `orderUpdated` arrives; afterwards the last update received is shown |
| Customer.ShownKeepsId | web/src/pages/CustomerOrder.tsx:82 | replacing the shown order with updates of the same order keeps its id and ends on the last update |
| Customer.TrackingShowsOwnOrder | web/src/pages/CustomerOrder.tsx:80-82 | whatever the server broadcasts, the page shows its own order, as placed until a change arrives |
| Grouping.GroupBy | web/src/pages/CustomerOrder.tsx:37-45 | no group is empty |
| Grouping.GroupByIsInGroup | web/src/pages/CustomerOrder.tsx:38-43 | a group exists iff some item is named by it, and holds exactly that group's items in list order |
| Grouping.PageGroups | web/src/pages/CustomerOrder.tsx:37-45 | the page fails iff some item's group name is an inherited object member; otherwise the groups are exactly the reference groups, none of them inherited |
| Grouping.InheritedCategoryBreaksGrouping | web/src/pages/AdminMenu.tsx:22-30 | an item with category `constructor` makes the grouping fail |
| Grouping.GroupingPartitions | web/src/pages/AdminMenu.tsx:22-30 | each item lands in its own group as often as it occurs and in no other, and an empty category means "General" |
| AdminMenuPage.AdminGateAgrees | web/src/pages/AdminMenu.tsx:42-47 | the page's gate `ShouldLoad`: the page loads iff there is a token and the role is one the server's admin gate admits; staff never loads it |
| AdminMenuPage.ToggleAvailability | web/src/pages/AdminMenu.tsx:68-76 | entries with that id get the new flag and nothing else changes |
| AdminMenuPage.ToggleBack | web/src/pages/AdminMenu.tsx:72 | setting the flag back restores the list |
| AdminMenuPage.ToggleMatchesServer | web/src/pages/AdminMenu.tsx:71-72 | the page's toggled entry equals the server's updated record except for the update time |
| AdminMenuPage.Remove | web/src/pages/AdminMenu.tsx:78-86 | exactly the entries with another id remain |
| AdminMenuPage.RemoveAppend | web/src/pages/AdminMenu.tsx:82 | the kept entries stay in their order |
| AdminMenuPage.RemoveMatchesServer | web/src/pages/AdminMenu.tsx:81-82 | a list that showed the store shows after the delete exactly what the server kept |
| AdminMenuPage.CreateDisabledIffBlank | web/src/pages/AdminMenu.tsx:170 | Create is disabled iff every character of the name is whitespace |
| AdminMenuPage.FormAcceptedIff | web/src/pages/AdminMenu.tsx:53-59 | the server accepts the create form's body (`FormBody`) iff the name has ≥ 2 characters and the price is an integer ≥ 0 |
| AdminMenuPage.OneLetterNameEnabledButRefused | web/src/pages/AdminMenu.tsx:170 | a one-letter name enables Create yet is refused with 400 |

## Left out

- Socket.IO transport, asynchronous delivery, reconnection and `connect_error` display: a publish is sequential and returns what each socket is sent; there is no concurrency in the handlers to verify.
- The room Socket.IO gives every socket under its own id: no route emits to it.
- Token signing and verification (server/src/utils/tokens.js) and password hashing: `verify` is an uninterpreted parameter; the login, refresh and logout routes (server/src/routes/auth.js) are cookie and token plumbing over the database.
- web/src/lib/api.ts (the single-flight token refresh is a concurrency concern) and web/src/lib/auth.ts (browser storage): the pages take the stored token and role as inputs.
- web/src/components/Money.tsx: floating-point division and locale formatting of cents.
- The display order of category groups, which uses `localeCompare` and so depends on the locale: groups are a map.
- Menu.ParseMenuPatch: assumes zod 3's `.partial()`, under which a field the body omits stays omitted and its `.default(…)` is not applied; the zod version is not pinned by the repository's files. Zod 4 applies the inner defaults even under `.partial()`, so there an update such as `{isAvailable: false}` would also reset description, category and image URL to their defaults, and `Menu.ApplyPatch`, `Menu.UpdateItem`, `AdminMenuPage.ToggleMatchesServer` and `Menu.BlankNameCreateVsUpdate` would not describe the program.
- Grouping.GroupBy: its own contract says only that no group is empty; what each group holds is stated by `Grouping.GroupByIsInGroup` and `Grouping.GroupingPartitions`. It is the loop for names that are not inherited object members; `Grouping.PageGroups` adds the failure for those that are. The inherited names listed are those of `Object.prototype` in a current JavaScript engine.
- Database mechanics: ids are opaque keys. So a malformed id, which the database driver rejects with 500, is not modelled. Neither is an upper-case hex id that the driver accepts but that then fails the snapshot's string lookup. Records with equal sort keys may come back in any order.
- Orders.CreateOrder: the two 500 messages are shortened. The duplicate-number message is "E11000 duplicate key error", where the driver's message goes on to name the collection, the index and the key. The blank-name message is "Order validation failed", where Mongoose's message goes on to list each failing path (``items.<n>.name: Path `name` is required.``).
- Orders.CreateOrder: the order number is the random id upper-cased in ASCII, which is exactly what `toUpperCase` does to an id generator's alphabet; the generator itself is a parameter.
- String lengths are counted in characters, where JavaScript counts UTF-16 code units; strings with characters outside the Basic Multilingual Plane would count differently in the length checks.
- Numbers in request bodies are integers or "not an integer"; floating-point values, `NaN` and numbers beyond 2^53 are not modelled.
- Customer.CartItems: requires every item with a positive count to be on the loaded menu, since the page dereferences the lookup without a check; a cart key that is an array index would be listed first by JavaScript, which the 24-character ids never are.
- The error lines of the customer and admin pages ("Failed to place order", "Failed to load admin menu", "Failed to update item", "Failed to delete item", "Failed to create item"): they follow the same `message ?? fallback` rule modelled for the staff page, and a failed request leaves those pages' lists as they were.
- Page rendering, routing, loading spinners, form field state, and the create form's reset and reload after a successful create (I/O).
- Entry points, the seed script, the health route, the error handler's wiring, lint configuration and the smoke tests.

=== FILE: adminmenu.dfy ===
/** The admin menu page: who it is for, the list updates after an
    availability change or a delete went through, the create form's body,
    and when its Create button is disabled. */
module AdminMenuPage {
  import opened Common
  import opened Domain
  import Menu
  import HttpAuth

  /** `session.role === "admin"`. */
  predicate IsAdmin(role: Option<string>)
  {
    role == Some("admin")
  }

  /** The page loads the admin list only with a stored token and the admin
      role. */
  predicate ShouldLoad(token: Option<string>, role: Option<string>)
  {
    Truthy(token) && IsAdmin(role)
  }

  /** The page's gate and the server's admit the same role: a staff member
      sees the page's refusal rather than a 403. */
  lemma AdminGateAgrees(token: Option<string>, role: string)
    ensures ShouldLoad(token, Some(role)) <==> Truthy(token) && role in Menu.AdminRoles
    ensures !ShouldLoad(token, Some("staff")) && !ShouldLoad(None, Some(role))
  {
  }

  // ---------------------------------------------------------------------
  // List updates

  /** After a successful `PUT {isAvailable}`: the entries with that id get
      the new flag, every other field and entry as they were. */
  function ToggleAvailability(items: seq<Menu.MenuItem>, id: string, v: bool): (r: seq<Menu.MenuItem>)
    ensures |r| == |items|
    ensures forall i :: 0 <= i < |items| && items[i].id == id ==> r[i] == items[i].(isAvailable := v)
    ensures forall i :: 0 <= i < |items| && items[i].id != id ==> r[i] == items[i]
  {
    seq(|items|, i requires 0 <= i < |items| => if items[i].id == id then items[i].(isAvailable := v) else items[i])
  }

  /** Setting the flag back to what every entry with that id had restores
      the list. */
  lemma ToggleBack(items: seq<Menu.MenuItem>, id: string, v: bool, w: bool)
    requires forall i :: 0 <= i < |items| && items[i].id == id ==> items[i].isAvailable == w
    ensures ToggleAvailability(ToggleAvailability(items, id, v), id, w) == items
  {
  }

  /** The body the page sends to change availability. */
  function AvailabilityBody(v: bool): Menu.RawMenuItem
  {
    Menu.RawMenuItem(Absent, Absent, Absent, Absent, Absent, Bool(v))
  }

  /** The page's copy after the toggle is the stored record after the
      server's update, but for the update time the page does not learn. */
  lemma ToggleMatchesServer(items: seq<Menu.MenuItem>, i: nat, store: Menu.MenuStore,
                            header: Option<string>, verify: string -> Option<Claims>, v: bool, now: int,
                            stored: Menu.MenuItem)
    requires i < |items| && items[i].id in store && store[items[i].id] == items[i]
    requires Menu.UpdateItem(store, header, verify, items[i].id, AvailabilityBody(v), now).Ok?
    requires stored == Menu.UpdateItem(store, header, verify, items[i].id, AvailabilityBody(v), now).value.1
    ensures ToggleAvailability(items, items[i].id, v)[i] == stored.(updatedAt := items[i].updatedAt)
  {
    var patch := Menu.ParseMenuPatch(AvailabilityBody(v)).value;
    assert patch.name.None? && patch.description.None? && patch.category.None?;
    assert patch.priceCents.None? && patch.imageUrl.None? && patch.isAvailable == Some(v);
  }

  /** After a successful DELETE: every entry with that id is dropped. */
  function Remove(items: seq<Menu.MenuItem>, id: string): (r: seq<Menu.MenuItem>)
    ensures |r| <= |items|
    ensures forall x :: x in r <==> x in items && x.id != id
  {
    if |items| == 0 then []
    else
      var rest := Remove(items[1..], id);
      assert forall x :: x in items <==> x == items[0] || x in items[1..];
      (if items[0].id == id then [] else [items[0]]) + rest
  }

  /** The kept entries stay in their order. */
  lemma {:induction false} RemoveAppend(a: seq<Menu.MenuItem>, b: seq<Menu.MenuItem>, id: string)
    ensures Remove(a + b, id) == Remove(a, id) + Remove(b, id)
  {
    if |a| == 0 {
      assert a + b == b;
    } else {
      assert (a + b)[1..] == a[1..] + b;
      RemoveAppend(a[1..], b, id);
    }
  }

  /** A page list that showed the store shows, after the delete, exactly
      the store the server kept. */
  lemma RemoveMatchesServer(items: seq<Menu.MenuItem>, store: Menu.MenuStore,
                            header: Option<string>, verify: string -> Option<Claims>, id: string)
    requires Menu.StoreWellFormed(store)
    requires forall x :: x in items <==> x in store.Values
    requires Menu.DeleteItem(store, header, verify, id).Ok?
    ensures forall x :: x in Remove(items, id) <==> x in Menu.DeleteItem(store, header, verify, id).value.Values
  {
    var kept := Menu.DeleteItem(store, header, verify, id).value;
    forall x ensures x in Remove(items, id) <==> x in kept.Values {
      if x in store.Values {
        var k :| k in store && store[k] == x;
        assert x.id == k;
        if k != id {
          assert kept[k] == x;
        }
      }
      if x in kept.Values {
        var k :| k in kept && kept[k] == x;
        assert store[k] == x;
      }
    }
  }

  // ---------------------------------------------------------------------
  // Create form

  /** `disabled={!name.trim()}`. */
  predicate CreateDisabled(name: string)
  {
    Trim(name) == ""
  }

  /** The button is disabled exactly while every character of the name is
      white space. */
  lemma CreateDisabledIffBlank(name: string)
    ensures CreateDisabled(name) <==> forall i :: 0 <= i < |name| ==> IsJsSpace(name[i])
  {
    TrimBlank(name);
  }

  /** The body of the create form: the price as the number input yields
      it, and the item always available. */
  function FormBody(name: string, category: string, price: Value, description: string): Menu.RawMenuItem
  {
    Menu.RawMenuItem(Str(name), Str(description), Str(category), price, Absent, Bool(true))
  }

  /** The server takes the form exactly when the name has at least two
      characters and the price is a whole number of at least 0; the button
      checks only that the name is not blank. */
  lemma FormAcceptedIff(name: string, category: string, price: Value, description: string)
    ensures Menu.ParseMenuItem(FormBody(name, category, price, description)).Ok? <==>
              |name| >= 2 && price.Num? && price.n >= 0
  {
  }

  /** A one-letter name passes the button and is refused with 400. */
  lemma OneLetterNameEnabledButRefused(c: char, category: string, description: string)
    requires !IsJsSpace(c)
    ensures !CreateDisabled([c])
    ensures Menu.ParseMenuItem(FormBody([c], category, Num(500), description)) == Err(ValidationError)
  {
    CreateDisabledIffBlank([c]);
    assert [c][0] == c;
  }
}

=== FILE: auth.dfy ===
/** The HTTP authorisation gate: `authRequired` turns the Authorization
    header into a principal, `roleRequired` admits a principal whose role is
    listed. Token verification is the parameter `verify`, which yields the
    token's claims or nothing when the signature, expiry or format is bad. */
module HttpAuth {
  import opened Common
  import opened Domain

  const BearerPrefix: string := "Bearer "

  const MissingToken: HttpError := HttpError(401, "Missing access token")
  const InvalidToken: HttpError := HttpError(401, "Invalid/expired access token")
  const Unauthorized: HttpError := HttpError(401, "Unauthorized")
  const Forbidden: HttpError := HttpError(403, "Forbidden")

  /** The token carried by the header: present only after exactly
      `Bearer ` (case-sensitive, one space), and then the whole remainder. */
  function BearerToken(header: Option<string>): (r: Option<string>)
    ensures r.Some? <==> StartsWith(OrEmpty(header), BearerPrefix)
    ensures r.Some? ==> OrEmpty(header) == BearerPrefix + r.value
  {
    var auth := OrEmpty(header);
    if StartsWith(auth, BearerPrefix) then Some(auth[7..]) else None
  }

  /** `authRequired`: on success the request's user is `{id: sub, role}`
      and the next handler runs; otherwise a 401 ends the request. */
  function AuthRequired(header: Option<string>, verify: string -> Option<Claims>): (r: Result<Principal, HttpError>)
    ensures r == Err(MissingToken) <==> !Truthy(BearerToken(header))
    ensures r == Err(InvalidToken) <==>
              Truthy(BearerToken(header)) && verify(BearerToken(header).value).None?
    ensures r.Ok? <==> Truthy(BearerToken(header)) && verify(BearerToken(header).value).Some?
    ensures r.Ok? ==> var c := verify(OrEmpty(header)[7..]).value;
                      r.value == Principal(c.sub, c.role)
  {
    var token := BearerToken(header);
    if !Truthy(token) then Err(MissingToken)
    else match verify(token.value)
      case None => Err(InvalidToken)
      case Some(c) => Ok(Principal(c.sub, c.role))
  }

  /** `roleRequired(roles)`: 401 without a user, 403 when the user's role
      is not listed, and otherwise the user passes on unchanged. */
  function RoleRequired(user: Option<Principal>, roles: seq<string>): (r: Result<Principal, HttpError>)
    ensures user.None? <==> r == Err(Unauthorized)
    ensures r == Err(Forbidden) <==> user.Some? && user.value.role !in roles
    ensures r.Ok? <==> user.Some? && user.value.role in roles
    ensures r.Ok? ==> r.value == user.value
  {
    match user
    case None => Err(Unauthorized)
    case Some(p) => if p.role in roles then Ok(p) else Err(Forbidden)
  }

  /** `authRequired` followed by `roleRequired(roles)`, the guard in front
      of every staff and admin route. */
  function Guard(header: Option<string>, verify: string -> Option<Claims>, roles: seq<string>): (r: Result<Principal, HttpError>)
    ensures r.Ok? ==> r.value.role in roles && AuthRequired(header, verify) == Ok(r.value)
    ensures r.Err? ==> r.error in {MissingToken, InvalidToken, Forbidden}
  {
    match AuthRequired(header, verify)
    case Err(e) => Err(e)
    case Ok(p) => RoleRequired(Some(p), roles)
  }

  /** A request passes the guard exactly when its header carries
      `Bearer <token>` with a non-empty token that verifies to claims whose
      role is listed; the only 403 is a verified token with an unlisted role. */
  lemma GuardCharacterised(header: Option<string>, verify: string -> Option<Claims>, roles: seq<string>)
    ensures Guard(header, verify, roles).Ok? <==>
              exists t :: t != "" && OrEmpty(header) == BearerPrefix + t
                       && verify(t).Some? && verify(t).value.role in roles
    ensures Guard(header, verify, roles) == Err(Forbidden) <==>
              exists t :: t != "" && OrEmpty(header) == BearerPrefix + t
                       && verify(t).Some? && verify(t).value.role !in roles
  {
    var h := OrEmpty(header);
    forall t | OrEmpty(header) == BearerPrefix + t
      ensures BearerToken(header) == Some(t)
    {
      assert h[..7] == BearerPrefix;
      assert h[7..] == t;
    }
  }

  /** The header `Bearer ` with nothing after it carries no token. */
  lemma BarePrefixIsMissing(verify: string -> Option<Claims>)
    ensures AuthRequired(Some(BearerPrefix), verify) == Err(MissingToken)
    ensures AuthRequired(None, verify) == Err(MissingToken)
  {
  }
}

=== FILE: common.dfy ===
/** Shared vocabulary of the café model: optional values, results with an
    error, the HTTP error shape the routes answer with, loosely typed JSON
    request fields, and the JavaScript string operations the code relies on. */
module Common {

  datatype Option<+T> = None | Some(value: T)

  datatype Result<+T, +E> = Ok(value: T) | Err(error: E)

  /** A status code and the `message` of the JSON body a route answers with. */
  datatype HttpError = HttpError(status: int, message: string)

  /** Body of the 400 answer the error handler gives for any schema failure. */
  const ValidationError: HttpError := HttpError(400, "Validation error")

  /** One field of a JSON request body as the schema validators see it:
      `Absent` is a missing key (undefined), `Num` an integral number,
      `Frac` a number that is not an integer, `Other` null, an array or an
      object. */
  datatype Value = Absent | Str(s: string) | Num(n: int) | Frac | Bool(b: bool) | Other

  function Min(a: int, b: int): int
  {
    if a <= b then a else b
  }

  /** JavaScript truthiness of an optional string: undefined, null and ""
      are all falsy. */
  predicate Truthy(s: Option<string>)
  {
    s.Some? && s.value != ""
  }

  /** `x || ""` for an optional string. */
  function OrEmpty(s: Option<string>): (r: string)
    ensures Truthy(s) ==> r == s.value
    ensures !Truthy(s) ==> r == ""
  {
    if s.Some? then s.value else ""
  }

  predicate StartsWith(s: string, prefix: string)
  {
    |prefix| <= |s| && s[..|prefix|] == prefix
  }

  /** No element occurs twice. */
  ghost predicate Distinct<T>(s: seq<T>)
  {
    forall i, j :: 0 <= i < j < |s| ==> s[i] != s[j]
  }

  /** The characters JavaScript's `trim` removes and the regular-expression
      class `\s` matches: WhiteSpace (tab, vertical tab, form feed, the
      byte-order mark and every space separator) and LineTerminator. */
  predicate IsJsSpace(c: char)
  {
    var n := c as int;
    n == 0x09 || n == 0x0A || n == 0x0B || n == 0x0C || n == 0x0D || n == 0x20
    || n == 0xA0 || n == 0x1680 || (0x2000 <= n <= 0x200A)
    || n == 0x2028 || n == 0x2029 || n == 0x202F || n == 0x205F
    || n == 0x3000 || n == 0xFEFF
  }

  /** `s` with its leading whitespace removed. */
  function TrimStart(s: string): (r: string)
    ensures |r| <= |s| && r == s[|s| - |r|..]
    ensures |r| > 0 ==> !IsJsSpace(r[0])
  {
    if |s| > 0 && IsJsSpace(s[0]) then TrimStart(s[1..]) else s
  }

  /** What `TrimStart` drops is whitespace. */
  lemma {:induction false} TrimStartDropsBlanks(s: string)
    ensures forall i :: 0 <= i < |s| - |TrimStart(s)| ==> IsJsSpace(s[i])
  {
    if |s| > 0 && IsJsSpace(s[0]) {
      TrimStartDropsBlanks(s[1..]);
      assert forall i :: 1 <= i < |s| ==> s[i] == s[1..][i - 1];
    }
  }

  /** `s` with its trailing whitespace removed. */
  function TrimEnd(s: string): (r: string)
    ensures |r| <= |s| && r == s[..|r|]
    ensures |r| > 0 ==> !IsJsSpace(r[|r| - 1])
  {
    if |s| > 0 && IsJsSpace(s[|s| - 1]) then TrimEnd(s[..|s| - 1]) else s
  }

  /** What `TrimEnd` drops is whitespace. */
  lemma {:induction false} TrimEndDropsBlanks(s: string)
    ensures forall i :: |TrimEnd(s)| <= i < |s| ==> IsJsSpace(s[i])
  {
    if |s| > 0 && IsJsSpace(s[|s| - 1]) {
      TrimEndDropsBlanks(s[..|s| - 1]);
    }
  }

  /** Neither starts nor ends with whitespace. */
  predicate Trimmed(s: string)
  {
    |s| == 0 || (!IsJsSpace(s[0]) && !IsJsSpace(s[|s| - 1]))
  }

  /** JavaScript's `String.prototype.trim`, which Mongoose's `trim: true`
      option also applies. `TrimKeepsInnerSlice` says which part of `s`
      the result is. */
  function Trim(s: string): (r: string)
    ensures |r| <= |s|
    ensures Trimmed(r)
  {
    var a := TrimStart(s);
    var r := TrimEnd(a);
    assert |r| > 0 ==> r[0] == a[0];
    r
  }

  /** When the first `a` characters of `s` are whitespace and the next one
      is not, removing the leading whitespace leaves `s[a..]`. */
  lemma {:induction false} TrimStartFrom(s: string, a: nat)
    requires a <= |s|
    requires forall i :: 0 <= i < a ==> IsJsSpace(s[i])
    requires a < |s| ==> !IsJsSpace(s[a])
    ensures TrimStart(s) == s[a..]
    decreases a
  {
    if a > 0 {
      assert forall i :: 0 <= i < a - 1 ==> s[1..][i] == s[i + 1];
      TrimStartFrom(s[1..], a - 1);
    }
  }

  /** For `a` the position of the first non-whitespace character of `s`
      (or `|s|` when there is none), trimming keeps the characters of `s`
      from `a` on, in order, and everything of `s` after them is
      whitespace. */
  lemma TrimKeepsInnerSlice(s: string, a: nat)
    requires a <= |s|
    requires forall i :: 0 <= i < a ==> IsJsSpace(s[i])
    requires a < |s| ==> !IsJsSpace(s[a])
    ensures a + |Trim(s)| <= |s|
    ensures forall j :: 0 <= j < |Trim(s)| ==> Trim(s)[j] == s[a + j]
    ensures forall i :: a + |Trim(s)| <= i < |s| ==> IsJsSpace(s[i])
  {
    TrimStartFrom(s, a);
    TrimEndDropsBlanks(s[a..]);
    InnerSlice(s, a, Trim(s));
  }

  /** A prefix `r` of `s[a..]` followed there only by whitespace sits in
      `s` at `a`, followed only by whitespace. */
  lemma InnerSlice(s: string, a: nat, r: string)
    requires a <= |s| && |r| <= |s| - a && r == s[a..][..|r|]
    requires forall i :: |r| <= i < |s| - a ==> IsJsSpace(s[a..][i])
    ensures a + |r| <= |s|
    ensures forall j :: 0 <= j < |r| ==> r[j] == s[a + j]
    ensures forall i :: a + |r| <= i < |s| ==> IsJsSpace(s[i])
  {
    forall i | a + |r| <= i < |s|
      ensures IsJsSpace(s[i])
    {
      assert s[i] == s[a..][i - a];
    }
  }

  /** A string trims to "" exactly when it is all whitespace. */
  lemma TrimBlank(s: string)
    ensures Trim(s) == "" <==> forall i :: 0 <= i < |s| ==> IsJsSpace(s[i])
  {
    var a := TrimStart(s);
    TrimStartDropsBlanks(s);
    TrimEndDropsBlanks(a);
    if Trim(s) == "" {
      assert |a| == 0;
    } else {
      assert !IsJsSpace(a[0]);
    }
  }

  /** A string that neither starts nor ends with whitespace is its own
      trim. */
  lemma TrimUnchanged(s: string)
    requires Trimmed(s)
    ensures Trim(s) == s
  {
    if |s| > 0 {
      assert TrimStart(s) == s;
      assert TrimEnd(s) == s;
    }
  }

  /** Trimming an already trimmed string changes nothing. */
  lemma TrimIdempotent(s: string)
    ensures Trim(Trim(s)) == Trim(s)
  {
    TrimUnchanged(Trim(s));
  }

  function LowerAscii(c: char): char
  {
    if 'A' <= c <= 'Z' then (c as int + 32) as char else c
  }

  /** ASCII upper-casing; on the characters an id generator emits
      (letters, digits, `_` and `-`) it is exactly `toUpperCase`. */
  function UpperAscii(s: string): (r: string)
    ensures |r| == |s|
    ensures forall i :: 0 <= i < |s| ==> !('a' <= r[i] <= 'z')
    ensures forall i :: 0 <= i < |s| && 'a' <= s[i] <= 'z' ==> r[i] == (s[i] as int - 32) as char
    ensures forall i :: 0 <= i < |s| && !('a' <= s[i] <= 'z') ==> r[i] == s[i]
  {
    if |s| == 0 then ""
    else
      var c := s[0];
      [if 'a' <= c <= 'z' then (c as int - 32) as char else c] + UpperAscii(s[1..])
  }

  /** `a` equals the lower-case ASCII word `w` when letters are compared
      without regard to case, the way a regular expression with the `i`
      flag and no `u` flag compares them. */
  predicate EqualsIgnoreCase(a: string, w: string)
  {
    |a| == |w| && forall i :: 0 <= i < |a| ==> LowerAscii(a[i]) == w[i]
  }

  /** Code-point lexicographic order, the order a database sorts strings
      in under its default binary collation. */
  predicate StrLe(a: string, b: string)
  {
    if |a| == 0 then true
    else if |b| == 0 then false
    else if a[0] < b[0] then true
    else if b[0] < a[0] then false
    else StrLe(a[1..], b[1..])
  }

  lemma {:induction false} StrLeTotal(a: string, b: string)
    ensures StrLe(a, b) || StrLe(b, a)
  {
    if |a| > 0 && |b| > 0 && a[0] == b[0] {
      StrLeTotal(a[1..], b[1..]);
    }
  }

  lemma {:induction false} StrLeTransitive(a: string, b: string, c: string)
    requires StrLe(a, b) && StrLe(b, c)
    ensures StrLe(a, c)
  {
    if |a| > 0 && |b| > 0 && |c| > 0 && a[0] == b[0] && b[0] == c[0] {
      StrLeTransitive(a[1..], b[1..], c[1..]);
    }
  }

  lemma {:induction false} StrLeAntisymmetric(a: string, b: string)
    requires StrLe(a, b) && StrLe(b, a)
    ensures a == b
  {
    if |a| > 0 && |b| > 0 {
      StrLeAntisymmetric(a[1..], b[1..]);
      assert a == [a[0]] + a[1..];
      assert b == [b[0]] + b[1..];
    }
  }
}

=== FILE: customer.dfy ===
/** The customer ordering page: the cart of counts per menu item, the
    order lines derived from it against the loaded menu, the total in
    cents, the request `placeOrder` sends, and the order shown while the
    page tracks it live. */
module Customer {
  import opened Common
  import opened Domain
  import opened Realtime
  import Menu
  import Orders

  const EmptyCart: string := "Add at least one item"

  /** The cart object: counts per item id, and the order in which ids were
      first written, which is the order its entries are listed in. Ids are
      24-character hex strings, so none is listed ahead of the others as an
      integer-like key would be. */
  datatype Cart = Cart(order: seq<string>, qty: map<string, int>)

  const NoItems: Cart := Cart([], map[])

  /** Every listed id has a count and every count is listed once; no count
      is negative. */
  ghost predicate CartValid(c: Cart)
  {
    && Distinct(c.order)
    && (forall id :: id in c.qty <==> id in c.order)
    && (forall id :: id in c.qty ==> c.qty[id] >= 0)
  }

  /** `c[id] || 0`. */
  function Count(c: Cart, id: string): int
  {
    if id in c.qty then c.qty[id] else 0
  }

  /** `{ ...c, [id]: q }`: an existing key keeps its place, a new one goes
      last. */
  function Put(c: Cart, id: string, q: int): (r: Cart)
    ensures Count(r, id) == q
    ensures forall other :: other != id ==> Count(r, other) == Count(c, other)
    ensures r.order == if id in c.qty then c.order else c.order + [id]
  {
    Cart(if id in c.qty then c.order else c.order + [id], c.qty[id := q])
  }

  function Inc(c: Cart, id: string): (r: Cart)
    ensures Count(r, id) == Count(c, id) + 1
    ensures forall other :: other != id ==> Count(r, other) == Count(c, other)
    ensures CartValid(c) ==> CartValid(r)
  {
    Put(c, id, Count(c, id) + 1)
  }

  function Dec(c: Cart, id: string): (r: Cart)
    ensures Count(r, id) == if Count(c, id) > 0 then Count(c, id) - 1 else 0
    ensures Count(r, id) >= 0
    ensures forall other :: other != id ==> Count(r, other) == Count(c, other)
    ensures CartValid(c) ==> CartValid(r)
  {
    Put(c, id, if Count(c, id) - 1 > 0 then Count(c, id) - 1 else 0)
  }

  /** Taking one away undoes adding one: every count is as before. */
  lemma DecUndoesInc(c: Cart, id: string, k: string)
    requires CartValid(c)
    ensures Count(Dec(Inc(c, id), id), k) == Count(c, k)
  {
  }

  // ---------------------------------------------------------------------
  // Cart lines

  /** `new Map(menu.map(m => [m._id, m])).get(id)`: the last menu entry with
      that id. */
  function FindById(menu: seq<Menu.MenuItem>, id: string): (r: Option<Menu.MenuItem>)
    ensures r.Some? ==> r.value.id == id && r.value in menu
  {
    if |menu| == 0 then None
    else if menu[|menu| - 1].id == id then Some(menu[|menu| - 1])
    else FindById(menu[..|menu| - 1], id)
  }

  /** The lookup finds an entry exactly when the menu has one with that
      id, and then the one no later entry overrides. */
  lemma {:induction false} FindByIdIsLast(menu: seq<Menu.MenuItem>, id: string)
    ensures FindById(menu, id).None? <==> forall i :: 0 <= i < |menu| ==> menu[i].id != id
    ensures FindById(menu, id).Some? ==>
              exists i :: 0 <= i < |menu| && menu[i] == FindById(menu, id).value
                          && forall j :: i < j < |menu| ==> menu[j].id != id
  {
    if |menu| > 0 {
      var last := |menu| - 1;
      if menu[last].id == id {
        assert menu[last] == FindById(menu, id).value;
      } else {
        var init := menu[..last];
        FindByIdIsLast(init, id);
        assert FindById(menu, id) == FindById(init, id);
        if FindById(init, id).Some? {
          var i :| 0 <= i < |init| && init[i] == FindById(init, id).value
                   && forall j :: i < j < |init| ==> init[j].id != id;
          assert menu[i] == init[i];
          assert forall j :: i < j < |menu| ==> menu[j].id != id by {
            forall j | i < j < |menu|
              ensures menu[j].id != id
            {
              if j < last {
                assert menu[j] == init[j];
              }
            }
          }
        } else {
          forall i | 0 <= i < |menu|
            ensures menu[i].id != id
          {
            if i < last {
              assert menu[i] == init[i];
            }
          }
        }
      }
    }
  }

  /** Every id with a positive count is on the loaded menu; the page's
      non-null lookup needs nothing less. */
  ghost predicate CartOnMenu(c: Cart, menu: seq<Menu.MenuItem>)
  {
    forall id :: id in c.qty && c.qty[id] > 0 ==> FindById(menu, id).Some?
  }

  function LineFor(id: string, q: int, menu: seq<Menu.MenuItem>): LineItem
    requires FindById(menu, id).Some?
  {
    var m := FindById(menu, id).value;
    LineItem(id, m.name, m.priceCents, q)
  }

  /** The lines for the listed ids, in listing order, skipping counts of 0. */
  function Lines(order: seq<string>, qty: map<string, int>, menu: seq<Menu.MenuItem>): (r: seq<LineItem>)
    requires forall id :: id in order ==> id in qty
    requires forall id :: id in order && qty[id] > 0 ==> FindById(menu, id).Some?
    ensures |r| <= |order|
  {
    if |order| == 0 then []
    else
      assert forall x :: x in order[1..] ==> x in order;
      (if qty[order[0]] > 0 then [LineFor(order[0], qty[order[0]], menu)] else []) + Lines(order[1..], qty, menu)
  }

  /** Each line is a listed id with a positive count, priced from the
      menu. */
  lemma {:induction false} LinesSound(order: seq<string>, qty: map<string, int>, menu: seq<Menu.MenuItem>)
    requires forall id :: id in order ==> id in qty
    requires forall id :: id in order && qty[id] > 0 ==> FindById(menu, id).Some?
    ensures forall k :: 0 <= k < |Lines(order, qty, menu)| ==>
              && Lines(order, qty, menu)[k].menuItemId in order
              && Lines(order, qty, menu)[k].qty == qty[Lines(order, qty, menu)[k].menuItemId] > 0
              && Lines(order, qty, menu)[k] ==
                   LineFor(Lines(order, qty, menu)[k].menuItemId, Lines(order, qty, menu)[k].qty, menu)
  {
    if |order| > 0 {
      assert forall x :: x in order[1..] ==> x in order;
      LinesSound(order[1..], qty, menu);
    }
  }

  /** Every listed id with a positive count has a line. */
  lemma {:induction false} LinesComplete(order: seq<string>, qty: map<string, int>, menu: seq<Menu.MenuItem>, id: string)
    requires forall x :: x in order ==> x in qty
    requires forall x :: x in order && qty[x] > 0 ==> FindById(menu, x).Some?
    requires id in order && qty[id] > 0
    ensures exists k :: 0 <= k < |Lines(order, qty, menu)| && Lines(order, qty, menu)[k].menuItemId == id
  {
    assert forall x :: x in order[1..] ==> x in order;
    var rest := Lines(order[1..], qty, menu);
    var head := if qty[order[0]] > 0 then [LineFor(order[0], qty[order[0]], menu)] else [];
    assert Lines(order, qty, menu) == head + rest;
    if order[0] == id {
      assert Lines(order, qty, menu)[0].menuItemId == id;
    } else {
      LinesComplete(order[1..], qty, menu, id);
      var k :| 0 <= k < |rest| && rest[k].menuItemId == id;
      assert Lines(order, qty, menu)[|head| + k] == rest[k];
    }
  }

  /** No id has two lines when none is listed twice. */
  lemma {:induction false} LinesDistinct(order: seq<string>, qty: map<string, int>, menu: seq<Menu.MenuItem>)
    requires forall id :: id in order ==> id in qty
    requires forall id :: id in order && qty[id] > 0 ==> FindById(menu, id).Some?
    requires Distinct(order)
    ensures forall k, l :: 0 <= k < l < |Lines(order, qty, menu)| ==>
              Lines(order, qty, menu)[k].menuItemId != Lines(order, qty, menu)[l].menuItemId
  {
    if |order| > 0 {
      assert forall x :: x in order[1..] ==> x in order;
      assert order[0] !in order[1..];
      LinesDistinct(order[1..], qty, menu);
      LinesSound(order[1..], qty, menu);
    }
  }

  /** `cartItems`: one line per item with a positive count, in cart order,
      with name and price from the menu. */
  function CartItems(c: Cart, menu: seq<Menu.MenuItem>): (r: seq<LineItem>)
    requires CartValid(c) && CartOnMenu(c, menu)
    ensures forall k :: 0 <= k < |r| ==>
              && r[k].qty == Count(c, r[k].menuItemId) && r[k].qty > 0
              && FindById(menu, r[k].menuItemId).Some?
              && r[k].name == FindById(menu, r[k].menuItemId).value.name
              && r[k].priceCents == FindById(menu, r[k].menuItemId).value.priceCents
    ensures forall id :: Count(c, id) > 0 <==> exists k :: 0 <= k < |r| && r[k].menuItemId == id
    ensures forall k, l :: 0 <= k < l < |r| ==> r[k].menuItemId != r[l].menuItemId
  {
    LinesSound(c.order, c.qty, menu);
    LinesDistinct(c.order, c.qty, menu);
    forall id | Count(c, id) > 0
      ensures exists k :: 0 <= k < |Lines(c.order, c.qty, menu)| && Lines(c.order, c.qty, menu)[k].menuItemId == id
    {
      LinesComplete(c.order, c.qty, menu, id);
    }
    Lines(c.order, c.qty, menu)
  }

  /** No line has a negative price or a negative quantity. */
  predicate NonNegativeLines(lines: seq<LineItem>)
  {
    |lines| == 0 || (lines[0].priceCents >= 0 && lines[0].qty >= 0 && NonNegativeLines(lines[1..]))
  }

  /** The sum of price times quantity over the lines; with no negative
      price and no negative quantity it is not negative. */
  function Total(lines: seq<LineItem>): (r: int)
    ensures NonNegativeLines(lines) ==> r >= 0
  {
    if |lines| == 0 then 0 else lines[0].priceCents * lines[0].qty + Total(lines[1..])
  }

  /** The total of two runs of lines is the sum of their totals. */
  lemma {:induction false} TotalAppend(a: seq<LineItem>, b: seq<LineItem>)
    ensures Total(a + b) == Total(a) + Total(b)
  {
    if |a| == 0 {
      assert a + b == b;
    } else {
      assert (a + b)[1..] == a[1..] + b;
      TotalAppend(a[1..], b);
    }
  }

  /** Lines depend on the counts of the listed ids only. */
  lemma {:induction false} LinesFrame(order: seq<string>, qty: map<string, int>, qty': map<string, int>,
                                      menu: seq<Menu.MenuItem>)
    requires forall id :: id in order ==> id in qty && id in qty' && qty[id] == qty'[id]
    requires forall id :: id in order && qty[id] > 0 ==> FindById(menu, id).Some?
    ensures Lines(order, qty, menu) == Lines(order, qty', menu)
  {
    if |order| > 0 {
      LinesFrame(order[1..], qty, qty', menu);
    }
  }

  lemma {:induction false} LinesAppend(order: seq<string>, id: string, qty: map<string, int>,
                                       menu: seq<Menu.MenuItem>)
    requires forall x :: x in order + [id] ==> x in qty
    requires forall x :: x in order + [id] && qty[x] > 0 ==> FindById(menu, x).Some?
    ensures Lines(order + [id], qty, menu) ==
              Lines(order, qty, menu) + (if qty[id] > 0 then [LineFor(id, qty[id], menu)] else [])
  {
    var tail := if qty[id] > 0 then [LineFor(id, qty[id], menu)] else [];
    var whole := order + [id];
    if |order| == 0 {
      assert whole == [id] && whole[1..] == [];
      assert Lines(whole, qty, menu) == tail + Lines([], qty, menu);
    } else {
      assert whole[0] == order[0];
      assert whole[1..] == order[1..] + [id];
      assert forall x :: x in order[1..] + [id] ==> x in whole;
      assert forall x :: x in order[1..] ==> x in order;
      assert forall x :: x in order ==> x in whole;
      LinesAppend(order[1..], id, qty, menu);
      var head := if qty[order[0]] > 0 then [LineFor(order[0], qty[order[0]], menu)] else [];
      var mid := Lines(order[1..], qty, menu);
      assert Lines(whole, qty, menu) == head + (mid + tail);
      assert Lines(order, qty, menu) == head + mid;
      assert head + (mid + tail) == (head + mid) + tail;
    }
  }

  /** The total of the lines, one listed id at a time. */
  lemma TotalLinesCons(order: seq<string>, qty: map<string, int>, menu: seq<Menu.MenuItem>)
    requires |order| > 0
    requires forall x :: x in order ==> x in qty
    requires forall x :: x in order && qty[x] > 0 ==> FindById(menu, x).Some?
    ensures forall x :: x in order[1..] ==> x in order
    ensures Total(Lines(order, qty, menu)) ==
              (if qty[order[0]] > 0 then FindById(menu, order[0]).value.priceCents * qty[order[0]] else 0)
              + Total(Lines(order[1..], qty, menu))
  {
    assert forall x :: x in order[1..] ==> x in order;
    var rest := Lines(order[1..], qty, menu);
    var head := if qty[order[0]] > 0 then [LineFor(order[0], qty[order[0]], menu)] else [];
    assert Lines(order, qty, menu) == head + rest;
    TotalAppend(head, rest);
  }

  /** Raising the count of one listed id by one raises the total by that
      item's price. */
  lemma {:induction false} LinesBump(order: seq<string>, qty: map<string, int>, qty': map<string, int>,
                                     id: string, menu: seq<Menu.MenuItem>)
    requires Distinct(order) && id in order
    requires forall x :: x in order ==> x in qty && qty[x] >= 0
    requires forall x :: x in order && qty[x] > 0 ==> FindById(menu, x).Some?
    requires FindById(menu, id).Some?
    requires qty' == qty[id := qty[id] + 1]
    ensures Total(Lines(order, qty', menu)) == Total(Lines(order, qty, menu)) + FindById(menu, id).value.priceCents
  {
    var p := FindById(menu, id).value.priceCents;
    TotalLinesCons(order, qty, menu);
    TotalLinesCons(order, qty', menu);
    if order[0] == id {
      assert id !in order[1..];
      LinesFrame(order[1..], qty, qty', menu);
      MulSucc(p, qty[id]);
    } else {
      LinesBump(order[1..], qty, qty', id, menu);
    }
  }

  lemma MulSucc(p: int, q: int)
    ensures p * (q + 1) == p * q + p
  {
  }

  /** One more of an item puts exactly its price on the total. */
  lemma IncAddsPrice(c: Cart, id: string, menu: seq<Menu.MenuItem>)
    requires CartValid(c) && CartOnMenu(c, menu) && FindById(menu, id).Some?
    ensures CartOnMenu(Inc(c, id), menu)
    ensures Total(CartItems(Inc(c, id), menu)) == Total(CartItems(c, menu)) + FindById(menu, id).value.priceCents
  {
    var c' := Inc(c, id);
    if id in c.qty {
      assert c'.qty == c.qty[id := c.qty[id] + 1];
      LinesBump(c.order, c.qty, c'.qty, id, menu);
    } else {
      assert c'.order == c.order + [id];
      LinesFrame(c.order, c.qty, c'.qty, menu);
      LinesAppend(c.order, id, c'.qty, menu);
      var line := LineFor(id, 1, menu);
      TotalAppend(CartItems(c, menu), [line]);
      assert Total([line]) == line.priceCents * 1 + Total([]);
    }
  }

  // ---------------------------------------------------------------------
  // Placing the order

  /** `placeOrder`: an empty cart sends nothing and shows "Add at least one
      item"; otherwise the body carries the table, the notes and, per cart
      line, only the item id and the quantity. */
  function PlaceOrder(c: Cart, menu: seq<Menu.MenuItem>, table: string, notes: string): (r: Result<Orders.RawOrder, string>)
    requires CartValid(c) && CartOnMenu(c, menu)
    ensures r.Err? <==> forall id :: Count(c, id) <= 0
    ensures r.Err? ==> r.error == EmptyCart
    ensures r.Ok? ==>
              var lines := CartItems(c, menu);
              && r.value.table == Str(table) && r.value.notes == Str(notes)
              && r.value.items.Some? && |r.value.items.value| == |lines| > 0
              && forall k :: 0 <= k < |lines| ==>
                   r.value.items.value[k] == Orders.RawLine(Str(lines[k].menuItemId), Num(lines[k].qty))
  {
    var lines := CartItems(c, menu);
    if |lines| == 0 then Err(EmptyCart)
    else
      assert Count(c, lines[0].menuItemId) > 0;
      Ok(Orders.RawOrder(Str(table), Str(notes),
                         Some(seq(|lines|, k requires 0 <= k < |lines| =>
                                Orders.RawLine(Str(lines[k].menuItemId), Num(lines[k].qty))))))
  }

  /** The server accepts the page's body exactly when the table and notes
      fit and every line has at most 20 of an item whose id has at least
      ten characters; the page itself checks none of these. */
  lemma PayloadAcceptedIff(c: Cart, menu: seq<Menu.MenuItem>, table: string, notes: string)
    requires CartValid(c) && CartOnMenu(c, menu)
    requires PlaceOrder(c, menu, table, notes).Ok?
    ensures var lines := CartItems(c, menu);
            Orders.ParseOrderRequest(PlaceOrder(c, menu, table, notes).value).Ok? <==>
              && |table| <= 20 && |notes| <= 300
              && forall k :: 0 <= k < |lines| ==> lines[k].qty <= 20 && |lines[k].menuItemId| >= 10
  {
    var lines := CartItems(c, menu);
    var raw := PlaceOrder(c, menu, table, notes).value;
    assert forall k :: 0 <= k < |lines| ==>
             (Orders.LineOk(raw.items.value[k]) <==> lines[k].qty <= 20 && |lines[k].menuItemId| >= 10);
  }

  /** When the server's menu still holds every cart item, available and as
      the page loaded it, the server's snapshot of the page's body is
      exactly the cart's lines: the prices shown are the prices charged. */
  lemma SnapshotMatchesCart(c: Cart, menu: seq<Menu.MenuItem>, store: Menu.MenuStore, table: string, notes: string,
                            raw: Orders.RawOrder, req: Orders.OrderRequest)
    requires CartValid(c) && CartOnMenu(c, menu)
    requires PlaceOrder(c, menu, table, notes) == Ok(raw)
    requires Orders.ParseOrderRequest(raw) == Ok(req)
    requires forall id :: Count(c, id) > 0 ==>
               id in store && store[id].isAvailable && store[id] == FindById(menu, id).value
    ensures Orders.Snapshot(req.lines, store) == Ok(CartItems(c, menu))
  {
    var lines := CartItems(c, menu);
    assert |req.lines| == |raw.items.value| == |lines|;
    forall k | 0 <= k < |lines|
      ensures req.lines[k] == Orders.RequestLine(lines[k].menuItemId, lines[k].qty)
      ensures Orders.Available(store, req.lines[k].menuItemId)
      ensures Orders.SnapshotLine(req.lines[k], store[req.lines[k].menuItemId]) == lines[k]
    {
      assert raw.items.value[k] == Orders.RawLine(Str(lines[k].menuItemId), Num(lines[k].qty));
      assert Count(c, lines[k].menuItemId) > 0;
    }
    var snap := Orders.Snapshot(req.lines, store);
    assert snap.Ok?;
    assert snap.value == lines;
  }

  // ---------------------------------------------------------------------
  // Live tracking

  /** What the server broadcast, in order: a created order or a status
      change. */
  datatype Broadcast = WasCreated(order: PublicOrder) | WasUpdated(order: PublicOrder)

  function EmitsOf(b: Broadcast): seq<Emit>
  {
    match b
    case WasCreated(p) => CreatedEmits(p)
    case WasUpdated(p) => UpdatedEmits(p)
  }

  function AllEmits(history: seq<Broadcast>): seq<Emit>
  {
    if |history| == 0 then [] else EmitsOf(history[0]) + AllEmits(history[1..])
  }

  /** Reference: the status changes of order `id`, in order. */
  function OwnUpdates(history: seq<Broadcast>, id: string): seq<Event>
  {
    if |history| == 0 then []
    else
      (if history[0].WasUpdated? && history[0].order.id == id then [OrderUpdated(history[0].order)] else [])
      + OwnUpdates(history[1..], id)
  }

  /** After placing, the page opens a public socket and joins with the
      returned id; an ObjectId's 24 characters pass the guard, so the socket
      is in exactly that order's room. */
  lemma JoinAfterPlacing(reg: Registry, sid: SessionId, id: string)
    requires Valid(reg) && sid !in reg.sessions && |id| == 24
    ensures var r := JoinOrder(ConnectOrders(reg, sid), sid, Str(id));
            Valid(r) && r.sessions[sid].ns == OrdersNs && r.sessions[sid].rooms == {OrderRoom(id)}
  {
  }

  /** A socket in exactly one order's room is sent that order's status
      changes, in order, and nothing else: no new orders and no other
      order's changes. */
  lemma {:induction false} OnlyOwnUpdates(reg: Registry, sid: SessionId, id: string, history: seq<Broadcast>)
    requires Valid(reg) && sid in reg.sessions
    requires reg.sessions[sid].ns == OrdersNs && reg.sessions[sid].rooms == {OrderRoom(id)}
    ensures ReceivedBy(reg, sid, AllEmits(history)) == OwnUpdates(history, id)
  {
    if |history| > 0 {
      var b := history[0];
      ReceivedByAppend(reg, sid, EmitsOf(b), AllEmits(history[1..]));
      OnlyOwnUpdates(reg, sid, id, history[1..]);
      match b
      case WasCreated(p) =>
        CreatedAudience(reg, sid, p);
      case WasUpdated(p) =>
        UpdatedAudience(reg, sid, p);
        OrderRoomInjective(p.id, id);
    }
  }

  /** The shown order: each `orderUpdated` replaces it outright, so it is
      the last update received, or the order as placed while none is. */
  function Shown(placed: PublicOrder, received: seq<Event>): (r: PublicOrder)
    ensures (forall k :: 0 <= k < |received| ==> !received[k].OrderUpdated?) ==> r == placed
    ensures forall k :: 0 <= k < |received| && received[k].OrderUpdated? ==>
              (forall j :: k < j < |received| ==> !received[j].OrderUpdated?) ==> r == received[k].order
    decreases |received|
  {
    if |received| == 0 then placed
    else Shown(if received[0].OrderUpdated? then received[0].order else placed, received[1..])
  }

  lemma {:induction false} ShownKeepsId(placed: PublicOrder, received: seq<Event>)
    requires forall k :: 0 <= k < |received| ==> received[k].OrderUpdated? && received[k].order.id == placed.id
    ensures Shown(placed, received).id == placed.id
    ensures |received| > 0 ==> Shown(placed, received) == received[|received| - 1].order
    decreases |received|
  {
    if |received| > 0 {
      ShownKeepsId(received[0].order, received[1..]);
    }
  }

  lemma {:induction false} OwnUpdatesAreOwn(history: seq<Broadcast>, id: string)
    ensures forall k :: 0 <= k < |OwnUpdates(history, id)| ==>
              OwnUpdates(history, id)[k].OrderUpdated? && OwnUpdates(history, id)[k].order.id == id
  {
    if |history| > 0 {
      OwnUpdatesAreOwn(history[1..], id);
    }
  }

  /** Whatever the server broadcasts, the tracked order stays the placed
      one: the page shows the latest status change of its own order, or
      the order as placed while there is none. */
  lemma TrackingShowsOwnOrder(reg: Registry, sid: SessionId, placed: PublicOrder, history: seq<Broadcast>)
    requires Valid(reg) && sid in reg.sessions
    requires reg.sessions[sid].ns == OrdersNs && reg.sessions[sid].rooms == {OrderRoom(placed.id)}
    ensures var received := ReceivedBy(reg, sid, AllEmits(history));
            && Shown(placed, received).id == placed.id
            && (|received| == 0 ==> Shown(placed, received) == placed)
  {
    OnlyOwnUpdates(reg, sid, placed.id, history);
    OwnUpdatesAreOwn(history, placed.id);
    ShownKeepsId(placed, ReceivedBy(reg, sid, AllEmits(history)));
  }
}

=== FILE: domain.dfy ===
/** Values shared by the server routes, the realtime channel and the web
    pages: order statuses, order line snapshots, the order payload every
    route and event carries, and the authenticated principal. */
module Domain {
  import opened Common

  /** The five order statuses; the type itself is the stored enum, so no
      order can hold any other status. */
  datatype Status = New | InProgress | Ready | Completed | Cancelled

  /** The wire spelling of a status. */
  function StatusName(s: Status): string
  {
    match s
    case New => "NEW"
    case InProgress => "IN_PROGRESS"
    case Ready => "READY"
    case Completed => "COMPLETED"
    case Cancelled => "CANCELLED"
  }

  /** The status enum check: exactly the five wire spellings are accepted. */
  function ParseStatus(name: string): (r: Option<Status>)
    ensures r.Some? ==> StatusName(r.value) == name
    ensures r.None? ==> forall s: Status :: StatusName(s) != name
  {
    if name == "NEW" then Some(New)
    else if name == "IN_PROGRESS" then Some(InProgress)
    else if name == "READY" then Some(Ready)
    else if name == "COMPLETED" then Some(Completed)
    else if name == "CANCELLED" then Some(Cancelled)
    else None
  }

  lemma ParseStatusName(s: Status)
    ensures ParseStatus(StatusName(s)) == Some(s)
  {
  }

  /** The five statuses in the order the staff board offers them. */
  const StatusFlow: seq<Status> := [New, InProgress, Ready, Completed, Cancelled]

  /** The flow lists every status exactly once. */
  lemma StatusFlowComplete()
    ensures forall s: Status :: s in StatusFlow
    ensures |StatusFlow| == 5 && Distinct(StatusFlow)
  {
    forall s: Status ensures s in StatusFlow {
      match s
      case New => assert StatusFlow[0] == s;
      case InProgress => assert StatusFlow[1] == s;
      case Ready => assert StatusFlow[2] == s;
      case Completed => assert StatusFlow[3] == s;
      case Cancelled => assert StatusFlow[4] == s;
    }
  }

  /** One order line, a snapshot of the menu item at ordering time. */
  datatype LineItem = LineItem(menuItemId: string, name: string, priceCents: int, qty: int)

  /** The order as every route answers it and every event carries it. */
  datatype PublicOrder = PublicOrder(
    id: string,
    orderNumber: string,
    table: string,
    notes: string,
    status: Status,
    items: seq<LineItem>,
    createdAt: int,
    updatedAt: int)

  /** The claims a verified access token carries. */
  datatype Claims = Claims(sub: string, role: string)

  /** An authenticated user: `{ id: sub, role }`. */
  datatype Principal = Principal(id: string, role: string)

  /** Roles admitted to the staff routes and the staff realtime channel. */
  const StaffRoles: seq<string> := ["admin", "staff"]

  predicate IsStaffRole(role: string)
  {
    role in StaffRoles
  }
}

=== FILE: grouping.dfy ===
/** The category grouping both menu pages render: every item goes to the
    group named by its category, an empty category to "General", and each
    group keeps the items in list order. The order in which the groups are
    shown is locale dependent and is not part of this model; the groups are
    a map from name to items. The pages group into a plain object, so a
    category named like a member every object inherits finds that member
    instead of a missing group, and pushing onto it throws. */
module Grouping {
  import opened Common
  import Menu

  const DefaultGroup: string := "General"

  /** `item.category || "General"`. */
  function GroupName(item: Menu.MenuItem): string
  {
    if item.category == "" then DefaultGroup else item.category
  }

  /** The property names a plain object inherits from `Object.prototype`.
      Looking one up gives a function (or, for `__proto__`, the prototype
      object), which is truthy and has no `push`. */
  const InheritedNames: set<string> := {
    "constructor", "hasOwnProperty", "isPrototypeOf", "propertyIsEnumerable",
    "toString", "toLocaleString", "valueOf", "__proto__",
    "__defineGetter__", "__defineSetter__", "__lookupGetter__", "__lookupSetter__"
  }

  /** Reference definition: the items of group `g`, in list order. */
  function InGroup(items: seq<Menu.MenuItem>, g: string): seq<Menu.MenuItem>
  {
    if |items| == 0 then []
    else (if GroupName(items[0]) == g then [items[0]] else []) + InGroup(items[1..], g)
  }

  /** The page's loop: walk the list, pushing each item onto its group and
      creating the group on first use. */
  function GroupBy(items: seq<Menu.MenuItem>): (groups: map<string, seq<Menu.MenuItem>>)
    ensures forall g :: g in groups ==> |groups[g]| > 0
  {
    if |items| == 0 then map[]
    else
      var prev := GroupBy(items[..|items| - 1]);
      var item := items[|items| - 1];
      var g := GroupName(item);
      prev[g := (if g in prev then prev[g] else []) + [item]]
  }

  lemma {:induction false} InGroupAppend(items: seq<Menu.MenuItem>, item: Menu.MenuItem, g: string)
    ensures InGroup(items + [item], g) == InGroup(items, g) + (if GroupName(item) == g then [item] else [])
  {
    var whole := items + [item];
    var tail := if GroupName(item) == g then [item] else [];
    if |items| == 0 {
      assert whole == [item] && whole[1..] == [];
      assert InGroup(whole, g) == tail + InGroup([], g);
    } else {
      var head := if GroupName(items[0]) == g then [items[0]] else [];
      assert whole[0] == items[0];
      assert whole[1..] == items[1..] + [item];
      InGroupAppend(items[1..], item, g);
      assert InGroup(whole, g) == head + (InGroup(items[1..], g) + tail);
      assert InGroup(items, g) == head + InGroup(items[1..], g);
    }
  }

  lemma {:induction false} InGroupEmpty(items: seq<Menu.MenuItem>, g: string)
    ensures InGroup(items, g) == [] <==> forall i :: 0 <= i < |items| ==> GroupName(items[i]) != g
  {
    if |items| > 0 {
      InGroupEmpty(items[1..], g);
      assert forall i :: 1 <= i < |items| ==> items[i] == items[1..][i - 1];
    }
  }

  /** The page's groups are exactly the non-empty reference groups: a group
      exists for a name iff some item carries it, and holds exactly that
      name's items in list order. */
  lemma GroupByIsInGroup(items: seq<Menu.MenuItem>)
    ensures forall g :: g in GroupBy(items) <==> exists i :: 0 <= i < |items| && GroupName(items[i]) == g
    ensures forall g :: g in GroupBy(items) ==> GroupBy(items)[g] == InGroup(items, g)
  {
    GroupByKeys(items);
    GroupByValues(items);
  }

  lemma {:induction false} GroupByKeys(items: seq<Menu.MenuItem>)
    ensures forall g :: g in GroupBy(items) <==> exists i :: 0 <= i < |items| && GroupName(items[i]) == g
  {
    if |items| > 0 {
      var init := items[..|items| - 1];
      var item := items[|items| - 1];
      GroupByKeys(init);
      forall g
        ensures g in GroupBy(items) <==> exists i :: 0 <= i < |items| && GroupName(items[i]) == g
      {
        if g in GroupBy(items) {
          if g == GroupName(item) {
            assert GroupName(items[|items| - 1]) == g;
          } else {
            assert g in GroupBy(init);
            var i :| 0 <= i < |init| && GroupName(init[i]) == g;
            assert items[i] == init[i];
          }
        }
        if exists i :: 0 <= i < |items| && GroupName(items[i]) == g {
          var i :| 0 <= i < |items| && GroupName(items[i]) == g;
          if i < |init| {
            assert GroupName(init[i]) == g;
            assert g in GroupBy(init);
          }
        }
      }
    }
  }

  lemma {:induction false} GroupByValues(items: seq<Menu.MenuItem>)
    ensures forall g :: g in GroupBy(items) ==> GroupBy(items)[g] == InGroup(items, g)
  {
    if |items| > 0 {
      var init := items[..|items| - 1];
      var item := items[|items| - 1];
      assert items == init + [item];
      GroupByValues(init);
      forall g | g in GroupBy(items)
        ensures GroupBy(items)[g] == InGroup(items, g)
      {
        InGroupAppend(init, item, g);
        if g == GroupName(item) && g !in GroupBy(init) {
          GroupByKeys(init);
          InGroupEmpty(init, g);
        }
      }
    }
  }

  lemma {:induction false} InGroupCount(items: seq<Menu.MenuItem>, g: string, x: Menu.MenuItem)
    ensures multiset(InGroup(items, g))[x] == if GroupName(x) == g then multiset(items)[x] else 0
  {
    if |items| > 0 {
      InGroupCount(items[1..], g, x);
      assert items == [items[0]] + items[1..];
    }
  }

  /** The grouping is a partition: each occurrence of an item lands in the
      group of its own name and in no other, and an item with an empty
      category lands in "General". */
  lemma GroupingPartitions(items: seq<Menu.MenuItem>, x: Menu.MenuItem)
    requires x in items
    ensures GroupName(x) in GroupBy(items)
    ensures multiset(GroupBy(items)[GroupName(x)])[x] == multiset(items)[x]
    ensures forall g :: g in GroupBy(items) && g != GroupName(x) ==> x !in GroupBy(items)[g]
    ensures x.category == "" ==> GroupName(x) == DefaultGroup
  {
    GroupByIsInGroup(items);
    var i :| 0 <= i < |items| && items[i] == x;
    InGroupCount(items, GroupName(x), x);
    forall g | g in GroupBy(items) && g != GroupName(x) ensures x !in GroupBy(items)[g] {
      InGroupCount(items, g, x);
    }
  }

  /** What the pages' grouping yields: the groups, or None when an item's
      group name is inherited and the loop throws, which takes the page's
      render down with it. */
  function PageGroups(items: seq<Menu.MenuItem>): (r: Option<map<string, seq<Menu.MenuItem>>>)
    ensures r.None? <==> exists i :: 0 <= i < |items| && GroupName(items[i]) in InheritedNames
    ensures r.Some? ==> forall g :: g in r.value <==> exists i :: 0 <= i < |items| && GroupName(items[i]) == g
    ensures r.Some? ==> forall g :: g in r.value ==> r.value[g] == InGroup(items, g) && g !in InheritedNames
  {
    if exists i :: 0 <= i < |items| && GroupName(items[i]) in InheritedNames then None
    else
      GroupByIsInGroup(items);
      Some(GroupBy(items))
  }

  /** An admin can name a category "constructor"; both menu pages then
      fail to group. */
  lemma InheritedCategoryBreaksGrouping(items: seq<Menu.MenuItem>, i: nat)
    requires i < |items| && items[i].category == "constructor"
    ensures PageGroups(items).None?
  {
    assert GroupName(items[i]) in InheritedNames;
  }
}

=== FILE: menu.dfy ===
/** Menu items: the stored record with its schema defaults and trimming,
    the request validator shared by create and (in its partial form)
    update, the public and admin listings, and the admin create, update and
    delete routes over a store keyed by item id. */
module Menu {
  import opened Common
  import opened Domain
  import opened Sorting
  import HttpAuth

  /** A stored menu item. `createdAt`/`updatedAt` are the schema's
      timestamps. */
  datatype MenuItem = MenuItem(
    id: string,
    name: string,
    description: string,
    category: string,
    priceCents: int,
    imageUrl: string,
    isAvailable: bool,
    createdAt: int,
    updatedAt: int)

  type MenuStore = map<string, MenuItem>

  const AdminRoles: seq<string> := ["admin"]
  const NotFound: HttpError := HttpError(404, "Not found")
  /** What the error handler answers for the model's own validation
      failure: no status code of its own, so 500 with the error's message. */
  const NameRequired: HttpError := HttpError(500, "MenuItem validation failed: name: Path `name` is required.")

  /** A request body for an item, field by field. */
  datatype RawMenuItem = RawMenuItem(
    name: Value, description: Value, category: Value,
    priceCents: Value, imageUrl: Value, isAvailable: Value)

  /** A body the validator accepted, with the defaults filled in. */
  datatype MenuInput = MenuInput(
    name: string, description: string, category: string,
    priceCents: int, imageUrl: string, isAvailable: bool)

  /** A body the partial validator accepted: only supplied fields. */
  datatype MenuPatch = MenuPatch(
    name: Option<string>, description: Option<string>, category: Option<string>,
    priceCents: Option<int>, imageUrl: Option<string>, isAvailable: Option<bool>)

  // ---------------------------------------------------------------------
  // Field validators

  predicate NameOk(v: Value) { v.Str? && |v.s| >= 2 }
  predicate PriceOk(v: Value) { v.Num? && v.n >= 0 }
  predicate OptStrOk(v: Value) { v.Absent? || v.Str? }
  predicate OptBoolOk(v: Value) { v.Absent? || v.Bool? }

  function StrOr(v: Value, default: string): string
  {
    if v.Str? then v.s else default
  }

  function BoolOr(v: Value, default: bool): bool
  {
    if v.Bool? then v.b else default
  }

  /** The item schema: a name of at least two characters and an integral
      price of at least 0 are required; description, category, imageUrl
      and isAvailable are optional with defaults "", "General", "" and
      true. */
  function ParseMenuItem(raw: RawMenuItem): (r: Result<MenuInput, HttpError>)
    ensures r.Ok? <==> NameOk(raw.name) && PriceOk(raw.priceCents) && OptStrOk(raw.description)
                       && OptStrOk(raw.category) && OptStrOk(raw.imageUrl) && OptBoolOk(raw.isAvailable)
    ensures r.Err? ==> r.error == ValidationError
    ensures r.Ok? ==>
              && r.value.name == raw.name.s && |r.value.name| >= 2
              && r.value.priceCents == raw.priceCents.n && r.value.priceCents >= 0
              && (raw.description.Absent? ==> r.value.description == "")
              && (raw.category.Absent? ==> r.value.category == "General")
              && (raw.imageUrl.Absent? ==> r.value.imageUrl == "")
              && (raw.isAvailable.Absent? ==> r.value.isAvailable)
              && (raw.description.Str? ==> r.value.description == raw.description.s)
              && (raw.category.Str? ==> r.value.category == raw.category.s)
              && (raw.imageUrl.Str? ==> r.value.imageUrl == raw.imageUrl.s)
              && (raw.isAvailable.Bool? ==> r.value.isAvailable == raw.isAvailable.b)
  {
    if NameOk(raw.name) && PriceOk(raw.priceCents) && OptStrOk(raw.description)
       && OptStrOk(raw.category) && OptStrOk(raw.imageUrl) && OptBoolOk(raw.isAvailable)
    then Ok(MenuInput(raw.name.s, StrOr(raw.description, ""), StrOr(raw.category, "General"),
                      raw.priceCents.n, StrOr(raw.imageUrl, ""), BoolOr(raw.isAvailable, true)))
    else Err(ValidationError)
  }

  function OptStr(v: Value): Option<string>
  {
    if v.Str? then Some(v.s) else None
  }

  /** The partial schema: every field may be left out, and a left-out
      field stays out (no default is filled in); a supplied field must meet
      the same constraint as on create. */
  function ParseMenuPatch(raw: RawMenuItem): (r: Result<MenuPatch, HttpError>)
    ensures r.Ok? <==> (raw.name.Absent? || NameOk(raw.name)) && (raw.priceCents.Absent? || PriceOk(raw.priceCents))
                       && OptStrOk(raw.description) && OptStrOk(raw.category)
                       && OptStrOk(raw.imageUrl) && OptBoolOk(raw.isAvailable)
    ensures r.Err? ==> r.error == ValidationError
    ensures r.Ok? ==>
              && (r.value.name.Some? <==> !raw.name.Absent?)
              && (r.value.name.Some? ==> r.value.name.value == raw.name.s && |r.value.name.value| >= 2)
              && (r.value.priceCents.Some? <==> !raw.priceCents.Absent?)
              && (r.value.priceCents.Some? ==> r.value.priceCents.value == raw.priceCents.n >= 0)
              && (r.value.description.Some? <==> !raw.description.Absent?)
              && (r.value.category.Some? <==> !raw.category.Absent?)
              && (r.value.imageUrl.Some? <==> !raw.imageUrl.Absent?)
              && (r.value.isAvailable.Some? <==> !raw.isAvailable.Absent?)
              && (raw.description.Str? ==> r.value.description == Some(raw.description.s))
              && (raw.category.Str? ==> r.value.category == Some(raw.category.s))
              && (raw.imageUrl.Str? ==> r.value.imageUrl == Some(raw.imageUrl.s))
              && (raw.isAvailable.Bool? ==> r.value.isAvailable == Some(raw.isAvailable.b))
  {
    if (raw.name.Absent? || NameOk(raw.name)) && (raw.priceCents.Absent? || PriceOk(raw.priceCents))
       && OptStrOk(raw.description) && OptStrOk(raw.category)
       && OptStrOk(raw.imageUrl) && OptBoolOk(raw.isAvailable)
    then Ok(MenuPatch(
           OptStr(raw.name), OptStr(raw.description), OptStr(raw.category),
           if raw.priceCents.Num? then Some(raw.priceCents.n) else None,
           OptStr(raw.imageUrl),
           if raw.isAvailable.Bool? then Some(raw.isAvailable.b) else None))
    else Err(ValidationError)
  }

  // ---------------------------------------------------------------------
  // Store invariant

  /** What the item schema guarantees of a record it builds: name,
      description and category are stored trimmed. */
  predicate ItemTrimmed(m: MenuItem)
  {
    Trimmed(m.name) && Trimmed(m.description) && Trimmed(m.category)
  }

  /** Every record sits under its own id, is trimmed and has a price of at
      least 0. */
  ghost predicate StoreWellFormed(store: MenuStore)
  {
    forall id :: id in store ==> store[id].id == id && ItemTrimmed(store[id]) && store[id].priceCents >= 0
  }

  // ---------------------------------------------------------------------
  // Routes

  /** Building the record from a validated body: name, description and
      category are trimmed, and a name that trims to "" fails the record's
      `required` check with an error that carries no status code, which
      the error handler answers with 500. */
  function BuildItem(input: MenuInput, id: string, now: int): (r: Result<MenuItem, HttpError>)
    ensures r.Err? <==> Trim(input.name) == ""
    ensures r.Err? ==> r.error == NameRequired
    ensures r.Ok? ==>
              && r.value.id == id && r.value.name == Trim(input.name) && r.value.name != ""
              && r.value.description == Trim(input.description) && r.value.category == Trim(input.category)
              && r.value.priceCents == input.priceCents && r.value.imageUrl == input.imageUrl
              && r.value.isAvailable == input.isAvailable
              && r.value.createdAt == now && r.value.updatedAt == now
              && ItemTrimmed(r.value)
  {
    var name := Trim(input.name);
    if name == "" then Err(NameRequired)
    else
      Ok(MenuItem(id, name, Trim(input.description), Trim(input.category),
                  input.priceCents, input.imageUrl, input.isAvailable, now, now))
  }

  /** POST /admin/menu: admins only; a body the schema refuses is 400; a
      name that trims to "" fails the record's validation with 500;
      otherwise the record is built and stored under the new id. */
  function CreateItem(store: MenuStore, header: Option<string>, verify: string -> Option<Claims>,
                      raw: RawMenuItem, newId: string, now: int): (r: Result<(MenuStore, MenuItem), HttpError>)
    requires newId !in store
    ensures HttpAuth.Guard(header, verify, AdminRoles).Err? ==> r == Err(HttpAuth.Guard(header, verify, AdminRoles).error)
    ensures HttpAuth.Guard(header, verify, AdminRoles).Ok? && ParseMenuItem(raw).Err? ==> r == Err(ValidationError)
    ensures HttpAuth.Guard(header, verify, AdminRoles).Ok? && ParseMenuItem(raw).Ok?
            && Trim(ParseMenuItem(raw).value.name) == "" ==>
              r == Err(NameRequired)
    ensures r.Ok? <==> HttpAuth.Guard(header, verify, AdminRoles).Ok? && ParseMenuItem(raw).Ok?
                       && BuildItem(ParseMenuItem(raw).value, newId, now).Ok?
    ensures r.Ok? ==> r.value.1 == BuildItem(ParseMenuItem(raw).value, newId, now).value
                      && r.value.0 == store[newId := r.value.1]
  {
    match HttpAuth.Guard(header, verify, AdminRoles)
    case Err(e) => Err(e)
    case Ok(_) =>
      match ParseMenuItem(raw)
      case Err(e) => Err(e)
      case Ok(input) =>
        match BuildItem(input, newId, now)
        case Err(e) => Err(e)
        case Ok(item) => Ok((store[newId := item], item))
  }

  /** Creating an item keeps the store well formed. */
  lemma CreateItemKeepsStoreWellFormed(store: MenuStore, header: Option<string>, verify: string -> Option<Claims>,
                                       raw: RawMenuItem, newId: string, now: int)
    requires newId !in store && StoreWellFormed(store)
    ensures CreateItem(store, header, verify, raw, newId, now).Ok? ==>
              StoreWellFormed(CreateItem(store, header, verify, raw, newId, now).value.0)
  {
    CreateItemIsBuilt(store, header, verify, raw, newId, now);
    if CreateItem(store, header, verify, raw, newId, now).Ok? {
      var item := BuildItem(ParseMenuItem(raw).value, newId, now).value;
      assert item.id == newId && ItemTrimmed(item) && item.priceCents >= 0;
      InsertKeepsStoreWellFormed(store, item);
    }
  }

  /** Storing a trimmed record with a price of at least 0 under its own,
      fresh id keeps the store well formed. */
  lemma InsertKeepsStoreWellFormed(store: MenuStore, item: MenuItem)
    requires StoreWellFormed(store) && item.id !in store
    requires ItemTrimmed(item) && item.priceCents >= 0
    ensures StoreWellFormed(store[item.id := item])
  {
    var store' := store[item.id := item];
    forall id | id in store'
      ensures store'[id].id == id && ItemTrimmed(store'[id]) && store'[id].priceCents >= 0
    {
      if id != item.id {
        assert store'[id] == store[id];
      }
    }
  }

  /** A created item has a non-blank name, the body's price, and the
      schema defaults for what the body left out. */
  lemma CreateItemDefaults(store: MenuStore, header: Option<string>, verify: string -> Option<Claims>,
                           raw: RawMenuItem, newId: string, now: int)
    requires newId !in store
    ensures var r := CreateItem(store, header, verify, raw, newId, now);
            r.Ok? ==>
              && r.value.1.name != "" && |raw.name.s| >= 2 && r.value.1.priceCents == raw.priceCents.n >= 0
              && (raw.category.Absent? ==> r.value.1.category == "General")
              && (raw.description.Absent? ==> r.value.1.description == "")
              && (raw.imageUrl.Absent? ==> r.value.1.imageUrl == "")
              && (raw.isAvailable.Absent? ==> r.value.1.isAvailable)
  {
    CreateItemIsBuilt(store, header, verify, raw, newId, now);
    if CreateItem(store, header, verify, raw, newId, now).Ok? {
      BuiltDefaults(raw, ParseMenuItem(raw).value, newId, now);
    }
  }

  /** The defaults, on a record built from a validated body. */
  lemma BuiltDefaults(raw: RawMenuItem, input: MenuInput, newId: string, now: int)
    requires ParseMenuItem(raw) == Ok(input) && BuildItem(input, newId, now).Ok?
    ensures var item := BuildItem(input, newId, now).value;
            && item.name != "" && |raw.name.s| >= 2 && item.priceCents == raw.priceCents.n >= 0
            && (raw.category.Absent? ==> item.category == "General")
            && (raw.description.Absent? ==> item.description == "")
            && (raw.imageUrl.Absent? ==> item.imageUrl == "")
            && (raw.isAvailable.Absent? ==> item.isAvailable)
  {
    if raw.category.Absent? {
      assert input.category == "General";
      DefaultCategoryTrimmed();
    }
    if raw.description.Absent? {
      assert input.description == "";
    }
  }

  lemma CreateItemIsBuilt(store: MenuStore, header: Option<string>, verify: string -> Option<Claims>,
                          raw: RawMenuItem, newId: string, now: int)
    requires newId !in store
    ensures CreateItem(store, header, verify, raw, newId, now).Ok? ==>
              && ParseMenuItem(raw).Ok? && BuildItem(ParseMenuItem(raw).value, newId, now).Ok?
              && CreateItem(store, header, verify, raw, newId, now).value.1
                   == BuildItem(ParseMenuItem(raw).value, newId, now).value
  {
  }

  lemma DefaultCategoryTrimmed()
    ensures Trim("General") == "General"
  {
    TrimUnchanged("General");
  }

  function TrimOpt(o: Option<string>, old_: string): string
  {
    if o.Some? then Trim(o.value) else old_
  }

  /** The record after `$set` of a patch: supplied fields replaced (the
      trimmed ones trimmed), the rest kept, `updatedAt` refreshed. */
  function ApplyPatch(m: MenuItem, p: MenuPatch, now: int): (r: MenuItem)
    ensures r.id == m.id && r.createdAt == m.createdAt && r.updatedAt == now
    ensures r.name == (if p.name.Some? then Trim(p.name.value) else m.name)
    ensures r.description == (if p.description.Some? then Trim(p.description.value) else m.description)
    ensures r.category == (if p.category.Some? then Trim(p.category.value) else m.category)
    ensures r.priceCents == (if p.priceCents.Some? then p.priceCents.value else m.priceCents)
    ensures r.imageUrl == (if p.imageUrl.Some? then p.imageUrl.value else m.imageUrl)
    ensures r.isAvailable == (if p.isAvailable.Some? then p.isAvailable.value else m.isAvailable)
  {
    m.(name := TrimOpt(p.name, m.name),
       description := TrimOpt(p.description, m.description),
       category := TrimOpt(p.category, m.category),
       priceCents := if p.priceCents.Some? then p.priceCents.value else m.priceCents,
       imageUrl := if p.imageUrl.Some? then p.imageUrl.value else m.imageUrl,
       isAvailable := if p.isAvailable.Some? then p.isAvailable.value else m.isAvailable,
       updatedAt := now)
  }

  /** PUT /admin/menu/:id: admins only; the partial body is validated, then
      an unknown id is 404, and a known one has only the supplied fields
      changed; no other item is touched. */
  function UpdateItem(store: MenuStore, header: Option<string>, verify: string -> Option<Claims>,
                      id: string, raw: RawMenuItem, now: int): (r: Result<(MenuStore, MenuItem), HttpError>)
    ensures HttpAuth.Guard(header, verify, AdminRoles).Err? ==> r == Err(HttpAuth.Guard(header, verify, AdminRoles).error)
    ensures HttpAuth.Guard(header, verify, AdminRoles).Ok? && ParseMenuPatch(raw).Err? ==> r == Err(ValidationError)
    ensures HttpAuth.Guard(header, verify, AdminRoles).Ok? && ParseMenuPatch(raw).Ok? && id !in store ==> r == Err(NotFound)
    ensures r.Ok? <==> HttpAuth.Guard(header, verify, AdminRoles).Ok? && ParseMenuPatch(raw).Ok? && id in store
    ensures r.Ok? ==>
              && r.value.0.Keys == store.Keys
              && r.value.0[id] == r.value.1
              && (forall other :: other in store && other != id ==> r.value.0[other] == store[other])
              && r.value.1 == ApplyPatch(store[id], ParseMenuPatch(raw).value, now)
  {
    match HttpAuth.Guard(header, verify, AdminRoles)
    case Err(e) => Err(e)
    case Ok(_) =>
      match ParseMenuPatch(raw)
      case Err(e) => Err(e)
      case Ok(patch) =>
        if id !in store then Err(NotFound)
        else
          var item := ApplyPatch(store[id], patch, now);
          Ok((store[id := item], item))
  }

  /** DELETE /admin/menu/:id: admins only; an unknown id is 404, a known
      one is removed and nothing else is. */
  function DeleteItem(store: MenuStore, header: Option<string>, verify: string -> Option<Claims>,
                      id: string): (r: Result<MenuStore, HttpError>)
    ensures HttpAuth.Guard(header, verify, AdminRoles).Err? ==> r == Err(HttpAuth.Guard(header, verify, AdminRoles).error)
    ensures HttpAuth.Guard(header, verify, AdminRoles).Ok? && id !in store ==> r == Err(NotFound)
    ensures r.Ok? <==> HttpAuth.Guard(header, verify, AdminRoles).Ok? && id in store
    ensures r.Ok? ==> r.value.Keys == store.Keys - {id}
                      && forall other :: other in r.value ==> r.value[other] == store[other]
  {
    match HttpAuth.Guard(header, verify, AdminRoles)
    case Err(e) => Err(e)
    case Ok(_) => if id !in store then Err(NotFound) else Ok(store - {id})
  }

  /** Only the admin role passes the admin guard: a verified staff token
      gets 403. */
  lemma StaffForbiddenFromAdminRoutes(header: Option<string>, verify: string -> Option<Claims>)
    requires HttpAuth.AuthRequired(header, verify).Ok?
    ensures HttpAuth.Guard(header, verify, AdminRoles).Ok? <==> HttpAuth.AuthRequired(header, verify).value.role == "admin"
    ensures HttpAuth.AuthRequired(header, verify).value.role == "staff" ==>
              HttpAuth.Guard(header, verify, AdminRoles) == Err(HttpAuth.Forbidden)
  {
  }

  /** A name of blanks meets the length check yet is refused by the record
      on create; through an update, whose record validators do not run, the
      same name is stored as "". */
  lemma BlankNameCreateVsUpdate(store: MenuStore, header: Option<string>, verify: string -> Option<Claims>,
                                id: string, newId: string, now: int)
    requires HttpAuth.Guard(header, verify, AdminRoles).Ok?
    requires id in store && newId !in store
    ensures var raw := RawMenuItem(Str("  "), Absent, Absent, Num(100), Absent, Absent);
            CreateItem(store, header, verify, raw, newId, now) == Err(NameRequired)
    ensures var patch := RawMenuItem(Str("  "), Absent, Absent, Absent, Absent, Absent);
            var r := UpdateItem(store, header, verify, id, patch, now);
            r.Ok? && r.value.1.name == ""
  {
    assert IsJsSpace("  "[0]) && IsJsSpace("  "[1]);
  }

  // ---------------------------------------------------------------------
  // Listings

  /** The sort `{category: 1, name: 1}`: by category, then by name. */
  predicate CategoryNameLe(a: MenuItem, b: MenuItem)
  {
    if a.category == b.category then StrLe(a.name, b.name) else StrLe(a.category, b.category)
  }

  lemma CategoryNameLeTotalPreorder()
    ensures TotalPreorder(CategoryNameLe)
  {
    forall a: MenuItem, b: MenuItem ensures CategoryNameLe(a, b) || CategoryNameLe(b, a) {
      StrLeTotal(a.name, b.name);
      StrLeTotal(a.category, b.category);
    }
    forall a: MenuItem, b: MenuItem, c: MenuItem | CategoryNameLe(a, b) && CategoryNameLe(b, c)
      ensures CategoryNameLe(a, c)
    {
      if a.category == b.category && b.category == c.category {
        StrLeTransitive(a.name, b.name, c.name);
      } else if a.category == b.category {
        assert StrLe(b.category, c.category);
      } else if b.category == c.category {
        assert StrLe(a.category, b.category);
      } else {
        StrLeTransitive(a.category, b.category, c.category);
        if a.category == c.category {
          StrLeAntisymmetric(a.category, b.category);
        }
      }
    }
  }

  /** The records of `store` in category-then-name order, each once. */
  method SortedItems(store: MenuStore) returns (items: seq<MenuItem>)
    ensures |items| == |store|
    ensures forall i :: 0 <= i < |items| ==> items[i] in store.Values
    ensures forall k :: k in store ==> store[k] in items
    ensures forall i, j :: 0 <= i < j < |items| ==> CategoryNameLe(items[i], items[j])
  {
    CategoryNameLeTotalPreorder();
    var keys := SortKeysBy(store, CategoryNameLe);
    items := seq(|keys|, i requires 0 <= i < |keys| => store[keys[i]]);
    forall k | k in store ensures store[k] in items {
      var i :| 0 <= i < |keys| && keys[i] == k;
      assert items[i] == store[k];
    }
  }

  /** GET /menu: exactly the available items, one entry per record, by
      category then name. */
  method PublicMenu(store: MenuStore) returns (items: seq<MenuItem>)
    ensures forall m :: m in items <==> m in store.Values && m.isAvailable
    ensures |items| == |set k | k in store && store[k].isAvailable|
    ensures forall i, j :: 0 <= i < j < |items| ==> CategoryNameLe(items[i], items[j])
  {
    var available := map k | k in store && store[k].isAvailable :: store[k];
    assert available.Keys == set k | k in store && store[k].isAvailable;
    items := SortedItems(available);
    forall m ensures m in items <==> m in store.Values && m.isAvailable {
      if m in items {
        var i :| 0 <= i < |items| && items[i] == m;
        assert m in available.Values;
      }
      if m in store.Values && m.isAvailable {
        var k :| k in store && store[k] == m;
        assert available[k] == m;
      }
    }
  }

  /** GET /admin/menu: admins only; every item, hidden ones included. */
  method AdminMenu(store: MenuStore, header: Option<string>, verify: string -> Option<Claims>)
    returns (r: Result<seq<MenuItem>, HttpError>)
    ensures HttpAuth.Guard(header, verify, AdminRoles).Err? ==> r == Err(HttpAuth.Guard(header, verify, AdminRoles).error)
    ensures r.Ok? <==> HttpAuth.Guard(header, verify, AdminRoles).Ok?
    ensures r.Ok? ==> |r.value| == |store| && (forall m :: m in r.value <==> m in store.Values)
    ensures r.Ok? ==> forall i, j :: 0 <= i < j < |r.value| ==> CategoryNameLe(r.value[i], r.value[j])
  {
    match HttpAuth.Guard(header, verify, AdminRoles)
    case Err(e) => r := Err(e);
    case Ok(_) =>
      var items := SortedItems(store);
      r := Ok(items);
  }
}

=== FILE: orders.dfy ===
/** Orders on the server: the stored record, the create-order validator,
    the all-or-nothing snapshot of line items from the available menu, the
    public projection, and the routes that create, fetch, list and change
    the status of an order together with the emits each successful write
    is followed by. The store maps an order id to its record. */
module Orders {
  import opened Common
  import opened Domain
  import opened Sorting
  import opened Realtime
  import Menu
  import HttpAuth

  /** A stored order. `version` is the document version key the database
      adds, which no route sends back. */
  datatype Order = Order(
    id: string,
    orderNumber: string,
    table: string,
    notes: string,
    status: Status,
    items: seq<LineItem>,
    createdAt: int,
    updatedAt: int,
    version: nat)

  type OrderStore = map<string, Order>

  const NotFound: HttpError := HttpError(404, "Not found")
  const MenuItemUnavailable: HttpError := HttpError(400, "Menu item unavailable")
  /** A second order with an existing order number breaks the unique index;
      the driver's error has no status code, so the answer is 500. */
  const DuplicateOrderNumber: HttpError := HttpError(500, "E11000 duplicate key error")
  /** A line whose snapshotted name is "" fails the line schema's `required`
      name before anything is written; that error has no status code
      either. */
  const OrderValidationFailed: HttpError := HttpError(500, "Order validation failed")

  /** The fields every route answers with; the staff routes' projection is
      the same function, field for field. */
  function ToPublic(o: Order): PublicOrder
  {
    PublicOrder(o.id, o.orderNumber, o.table, o.notes, o.status, o.items, o.createdAt, o.updatedAt)
  }

  /** The projection loses the version key and nothing else. */
  lemma ToPublicForgetsOnlyVersion(a: Order, b: Order)
    ensures ToPublic(a) == ToPublic(b) <==> a.(version := 0) == b.(version := 0)
  {
  }

  // ---------------------------------------------------------------------
  // Request validation

  datatype RawLine = RawLine(menuItemId: Value, qty: Value)

  /** A create-order body; `items` is None when the key is missing or not
      an array. */
  datatype RawOrder = RawOrder(table: Value, notes: Value, items: Option<seq<RawLine>>)

  datatype RequestLine = RequestLine(menuItemId: string, qty: int)

  datatype OrderRequest = OrderRequest(table: string, notes: string, lines: seq<RequestLine>)

  /** An optional string of at most `max` characters. */
  predicate OptStrMax(v: Value, max: nat)
  {
    v.Absent? || (v.Str? && |v.s| <= max)
  }

  /** A menu item id of at least ten characters and an integral quantity
      from 1 to 20. */
  predicate LineOk(l: RawLine)
  {
    l.menuItemId.Str? && |l.menuItemId.s| >= 10 && l.qty.Num? && 1 <= l.qty.n <= 20
  }

  /** The request line a valid raw line stands for. */
  function LineOf(l: RawLine): RequestLine
    requires LineOk(l)
  {
    RequestLine(l.menuItemId.s, l.qty.n)
  }

  /** The create-order schema: table of at most 20 characters and notes of
      at most 300, both defaulting to ""; at least one line, every line
      valid. */
  function ParseOrderRequest(raw: RawOrder): (r: Result<OrderRequest, HttpError>)
    ensures r.Ok? <==>
              && OptStrMax(raw.table, 20) && OptStrMax(raw.notes, 300)
              && raw.items.Some? && |raw.items.value| >= 1
              && forall i :: 0 <= i < |raw.items.value| ==> LineOk(raw.items.value[i])
    ensures r.Err? ==> r.error == ValidationError
    ensures r.Ok? ==>
              && r.value.table == (if raw.table.Str? then raw.table.s else "")
              && r.value.notes == (if raw.notes.Str? then raw.notes.s else "")
              && |r.value.table| <= 20 && |r.value.notes| <= 300
              && |r.value.lines| == |raw.items.value| >= 1
              && forall i :: 0 <= i < |r.value.lines| ==>
                   && r.value.lines[i].menuItemId == raw.items.value[i].menuItemId.s
                   && |r.value.lines[i].menuItemId| >= 10
                   && r.value.lines[i].qty == raw.items.value[i].qty.n
                   && 1 <= r.value.lines[i].qty <= 20
  {
    if OptStrMax(raw.table, 20) && OptStrMax(raw.notes, 300)
       && raw.items.Some? && |raw.items.value| >= 1
       && forall i :: 0 <= i < |raw.items.value| ==> LineOk(raw.items.value[i])
    then
      Ok(OrderRequest(if raw.table.Str? then raw.table.s else "",
                      if raw.notes.Str? then raw.notes.s else "",
                      seq(|raw.items.value|, i requires 0 <= i < |raw.items.value| => LineOf(raw.items.value[i]))))
    else Err(ValidationError)
  }

  // ---------------------------------------------------------------------
  // Snapshot

  /** The item is on the menu and not hidden. */
  predicate Available(menu: Menu.MenuStore, id: string)
  {
    id in menu && menu[id].isAvailable
  }

  /** The line as stored: the request's id and quantity with the menu's
      name and price at this moment. */
  function SnapshotLine(l: RequestLine, m: Menu.MenuItem): LineItem
  {
    LineItem(l.menuItemId, m.name, m.priceCents, l.qty)
  }

  /** Every line is looked up among the available items; one miss fails
      the whole order. */
  function Snapshot(lines: seq<RequestLine>, menu: Menu.MenuStore): (r: Result<seq<LineItem>, HttpError>)
    ensures r.Err? <==> exists i :: 0 <= i < |lines| && !Available(menu, lines[i].menuItemId)
    ensures r.Err? ==> r.error == MenuItemUnavailable
    ensures r.Ok? ==> |r.value| == |lines|
    ensures r.Ok? ==> forall i :: 0 <= i < |lines| ==>
              r.value[i] == SnapshotLine(lines[i], menu[lines[i].menuItemId])
  {
    if |lines| == 0 then Ok([])
    else if !Available(menu, lines[0].menuItemId) then Err(MenuItemUnavailable)
    else
      match Snapshot(lines[1..], menu)
      case Err(e) =>
        var i :| 0 <= i < |lines[1..]| && !Available(menu, lines[1..][i].menuItemId);
        assert !Available(menu, lines[i + 1].menuItemId);
        Err(e)
      case Ok(rest) =>
        assert forall i :: 1 <= i < |lines| ==> lines[i] == lines[1..][i - 1];
        Ok([SnapshotLine(lines[0], menu[lines[0].menuItemId])] + rest)
  }

  // ---------------------------------------------------------------------
  // Store invariant

  /** What the order schema guarantees of one record: at least one line,
      every quantity at least 1 (at most 20 through the create route) and
      every price at least 0. */
  predicate OrderValid(o: Order)
  {
    |o.items| >= 1 && NamedLines(o.items)
    && forall i :: 0 <= i < |o.items| ==> 1 <= o.items[i].qty <= 20 && o.items[i].priceCents >= 0
  }

  /** The line schema's `required` name: no line is named "". */
  predicate NamedLines(items: seq<LineItem>)
  {
    forall i :: 0 <= i < |items| ==> items[i].name != ""
  }

  /** Every record sits under its own id and is valid, and no two records
      share an order number (the unique index). */
  ghost predicate StoreWellFormed(store: OrderStore)
  {
    && (forall id :: id in store ==> store[id].id == id && OrderValid(store[id]))
    && (forall a, b :: a in store && b in store && a != b ==> store[a].orderNumber != store[b].orderNumber)
  }

  predicate NumberTaken(store: OrderStore, orderNumber: string)
  {
    exists id :: id in store && store[id].orderNumber == orderNumber
  }

  // ---------------------------------------------------------------------
  // Routes

  /** The outcome of a successful write: the new store, the order the
      route answers with, and what it emits after the write. */
  datatype Written = Written(store: OrderStore, order: PublicOrder, emits: seq<Emit>)

  /** POST /orders. The body is validated, the lines are snapshotted from
      the available menu, the order number is the seven-character `nano`
      upper-cased, and the record is stored with status NEW and both
      timestamps `now`. Only then is `orderCreated` emitted, to room
      "staff" alone, carrying exactly the stored order's projection, which
      is also the answer. A snapshot line named "" fails the record's
      validation, and a taken order number the unique index. Every failure
      stores and emits nothing. */
  function CreateOrder(store: OrderStore, menu: Menu.MenuStore, raw: RawOrder,
                       newId: string, nano: string, now: int): (r: Result<Written, HttpError>)
    requires newId !in store && |nano| == 7
    ensures ParseOrderRequest(raw).Err? ==> r == Err(ValidationError)
    ensures ParseOrderRequest(raw).Ok? && Snapshot(ParseOrderRequest(raw).value.lines, menu).Err? ==>
              r == Err(MenuItemUnavailable)
    ensures ParseOrderRequest(raw).Ok? && Snapshot(ParseOrderRequest(raw).value.lines, menu).Ok?
            && !NamedLines(Snapshot(ParseOrderRequest(raw).value.lines, menu).value) ==>
              r == Err(OrderValidationFailed)
    ensures ParseOrderRequest(raw).Ok? && Snapshot(ParseOrderRequest(raw).value.lines, menu).Ok?
            && NamedLines(Snapshot(ParseOrderRequest(raw).value.lines, menu).value)
            && NumberTaken(store, UpperAscii(nano)) ==>
              r == Err(DuplicateOrderNumber)
    ensures r.Ok? <==> ParseOrderRequest(raw).Ok? && Snapshot(ParseOrderRequest(raw).value.lines, menu).Ok?
                       && NamedLines(Snapshot(ParseOrderRequest(raw).value.lines, menu).value)
                       && !NumberTaken(store, UpperAscii(nano))
    ensures r.Ok? ==>
              var req := ParseOrderRequest(raw).value;
              && r.value.store.Keys == store.Keys + {newId}
              && (forall id :: id in store ==> r.value.store[id] == store[id])
              && var o := r.value.store[newId];
              && o.id == newId && o.status == New && o.version == 0
              && o.orderNumber == UpperAscii(nano) && |o.orderNumber| == 7
              && o.table == req.table && o.notes == req.notes
              && o.items == Snapshot(req.lines, menu).value
              && o.createdAt == now && o.updatedAt == now
              && r.value.order == ToPublic(o)
              && r.value.emits == CreatedEmits(r.value.order)
  {
    match ParseOrderRequest(raw)
    case Err(e) => Err(e)
    case Ok(req) =>
      match Snapshot(req.lines, menu)
      case Err(e) => Err(e)
      case Ok(items) =>
        var orderNumber := UpperAscii(nano);
        if !NamedLines(items) then Err(OrderValidationFailed)
        else if NumberTaken(store, orderNumber) then Err(DuplicateOrderNumber)
        else
          var o := Order(newId, orderNumber, req.table, req.notes, New, items, now, now, 0);
          var payload := ToPublic(o);
          Ok(Written(store[newId := o], payload, CreatedEmits(payload)))
  }

  /** Creating an order keeps the store well formed: the new record has
      its own id, valid lines and an order number no other record has. */
  lemma CreateKeepsStoreWellFormed(store: OrderStore, menu: Menu.MenuStore, raw: RawOrder,
                                   newId: string, nano: string, now: int, w: Written)
    requires newId !in store && |nano| == 7
    requires StoreWellFormed(store) && Menu.StoreWellFormed(menu)
    requires CreateOrder(store, menu, raw, newId, nano, now) == Ok(w)
    ensures StoreWellFormed(w.store)
  {
    var req := ParseOrderRequest(raw).value;
    var items := Snapshot(req.lines, menu).value;
    var o := w.store[newId];
    assert w.store == store[newId := o];
    forall i | 0 <= i < |o.items| ensures 1 <= o.items[i].qty <= 20 && o.items[i].priceCents >= 0 {
      assert o.items[i] == SnapshotLine(req.lines[i], menu[req.lines[i].menuItemId]);
    }
    assert OrderValid(o);
  }

  /** A menu item renamed to "" (which an update allows) stays orderable as
      far as the menu goes, but an order holding it is refused with 500
      and nothing is stored. */
  lemma BlankNamedItemRefused(store: OrderStore, menu: Menu.MenuStore, raw: RawOrder,
                              newId: string, nano: string, now: int, i: nat)
    requires newId !in store && |nano| == 7
    requires ParseOrderRequest(raw).Ok? && i < |ParseOrderRequest(raw).value.lines|
    requires forall k :: 0 <= k < |ParseOrderRequest(raw).value.lines| ==>
               Available(menu, ParseOrderRequest(raw).value.lines[k].menuItemId)
    requires var id := ParseOrderRequest(raw).value.lines[i].menuItemId;
             id in menu && menu[id].name == ""
    ensures CreateOrder(store, menu, raw, newId, nano, now) == Err(OrderValidationFailed)
  {
    var lines := ParseOrderRequest(raw).value.lines;
    var snap := Snapshot(lines, menu);
    assert snap.Ok?;
    assert snap.value[i] == SnapshotLine(lines[i], menu[lines[i].menuItemId]);
    assert snap.value[i].name == "";
  }

  /** GET /orders/:id: the projection of the stored order, or 404. */
  function GetOrder(store: OrderStore, id: string): (r: Result<PublicOrder, HttpError>)
    ensures r.Err? <==> id !in store
    ensures r.Err? ==> r.error == NotFound
    ensures r.Ok? ==> r.value == ToPublic(store[id])
  {
    if id in store then Ok(ToPublic(store[id])) else Err(NotFound)
  }

  /** The body of a status change: one of the five status names. */
  function ParseStatusBody(v: Value): (r: Result<Status, HttpError>)
    ensures r.Ok? <==> v.Str? && exists s: Status :: StatusName(s) == v.s
    ensures r.Ok? ==> StatusName(r.value) == v.s
    ensures r.Err? ==> r.error == ValidationError
  {
    if v.Str? then
      match ParseStatus(v.s)
      case Some(s) => Ok(s)
      case None => Err(ValidationError)
    else Err(ValidationError)
  }

  /** PATCH /staff/orders/:id/status: staff and admins only; the status is
      validated, an unknown id is 404 with nothing emitted, and otherwise
      the status is set (the timestamps option also refreshes `updatedAt`)
      and the same payload is emitted to room "staff" and to room
      `order:<id>`, then answered. */
  function UpdateStatus(store: OrderStore, header: Option<string>, verify: string -> Option<Claims>,
                        id: string, body: Value, now: int): (r: Result<Written, HttpError>)
    ensures HttpAuth.Guard(header, verify, StaffRoles).Err? ==> r == Err(HttpAuth.Guard(header, verify, StaffRoles).error)
    ensures HttpAuth.Guard(header, verify, StaffRoles).Ok? && ParseStatusBody(body).Err? ==> r == Err(ValidationError)
    ensures HttpAuth.Guard(header, verify, StaffRoles).Ok? && ParseStatusBody(body).Ok? && id !in store ==> r == Err(NotFound)
    ensures r.Ok? <==> HttpAuth.Guard(header, verify, StaffRoles).Ok? && ParseStatusBody(body).Ok? && id in store
    ensures r.Ok? ==>
              && r.value.store.Keys == store.Keys
              && (forall other :: other in store && other != id ==> r.value.store[other] == store[other])
              && var o := r.value.store[id];
              && StatusName(o.status) == body.s && o.updatedAt == now
              && o.(status := store[id].status, updatedAt := store[id].updatedAt) == store[id]
              && r.value.order == ToPublic(o)
              && r.value.emits == UpdatedEmits(r.value.order)
    ensures r.Ok? && StoreWellFormed(store) ==> StoreWellFormed(r.value.store)
  {
    match HttpAuth.Guard(header, verify, StaffRoles)
    case Err(e) => Err(e)
    case Ok(_) =>
      match ParseStatusBody(body)
      case Err(e) => Err(e)
      case Ok(status) =>
        if id !in store then Err(NotFound)
        else
          var o := store[id].(status := status, updatedAt := now);
          var payload := ToPublic(o);
          Ok(Written(store[id := o], payload, UpdatedEmits(payload)))
  }

  /** No transition order is enforced: from any stored order, any of the
      five statuses can be set by a staff member. */
  lemma AnyStatusReachable(store: OrderStore, header: Option<string>, verify: string -> Option<Claims>,
                           id: string, s: Status, now: int)
    requires HttpAuth.Guard(header, verify, StaffRoles).Ok? && id in store
    ensures UpdateStatus(store, header, verify, id, Str(StatusName(s)), now).Ok?
    ensures UpdateStatus(store, header, verify, id, Str(StatusName(s)), now).value.store[id].status == s
  {
    ParseStatusName(s);
  }

  // ---------------------------------------------------------------------
  // Staff listing

  /** The sort `{createdAt: -1}`: newer first. */
  predicate NewerOrSame(a: Order, b: Order)
  {
    a.createdAt >= b.createdAt
  }

  lemma NewerOrSameTotalPreorder()
    ensures TotalPreorder(NewerOrSame)
  {
  }

  const ListLimit: nat := 50

  /** A prefix of the keys sorted newest first holds every order newer
      than one of its members. */
  lemma PrefixHoldsNewest(store: OrderStore, keys: seq<string>, n: nat, id: string, i: nat)
    requires forall k :: k in keys <==> k in store
    requires SortedBy(keys, store, NewerOrSame)
    requires n <= |keys| && i < n && id in store
    requires forall j :: 0 <= j < n ==> keys[j] != id
    ensures store[id].createdAt <= store[keys[i]].createdAt
  {
    var k :| 0 <= k < |keys| && keys[k] == id;
    assert NewerOrSame(store[keys[i]], store[keys[k]]);
  }

  /** What the first `n` of the keys sorted newest first amount to. */
  lemma ListingFacts(store: OrderStore, keys: seq<string>, listed: seq<PublicOrder>)
    requires forall id :: id in store ==> store[id].id == id
    requires forall k :: k in keys <==> k in store
    requires Distinct(keys) && SortedBy(keys, store, NewerOrSame)
    requires |listed| <= |keys|
    requires forall i :: 0 <= i < |listed| ==> listed[i] == ToPublic(store[keys[i]])
    ensures forall i :: 0 <= i < |listed| ==> listed[i].id in store && listed[i] == ToPublic(store[listed[i].id])
    ensures forall i, j :: 0 <= i < j < |listed| ==> listed[i].id != listed[j].id
    ensures forall i, j :: 0 <= i < j < |listed| ==> listed[i].createdAt >= listed[j].createdAt
    ensures forall id, i :: id in store && 0 <= i < |listed| && (forall j :: 0 <= j < |listed| ==> listed[j].id != id)
              ==> store[id].createdAt <= listed[i].createdAt
  {
    assert forall j :: 0 <= j < |listed| ==> listed[j].id == keys[j];
    forall i, j | 0 <= i < j < |listed| ensures listed[i].createdAt >= listed[j].createdAt {
      assert NewerOrSame(store[keys[i]], store[keys[j]]);
    }
    forall id, i | id in store && 0 <= i < |listed| && (forall j :: 0 <= j < |listed| ==> listed[j].id != id)
      ensures store[id].createdAt <= listed[i].createdAt
    {
      PrefixHoldsNewest(store, keys, |listed|, id, i);
    }
  }

  /** GET /staff/orders: staff and admins only; at most 50 orders, newest
      first, each one stored order's projection, none twice, and no order
      left out that is newer than one listed. */
  method StaffOrders(store: OrderStore, header: Option<string>, verify: string -> Option<Claims>)
    returns (r: Result<seq<PublicOrder>, HttpError>)
    requires forall id :: id in store ==> store[id].id == id
    ensures HttpAuth.Guard(header, verify, StaffRoles).Err? ==> r == Err(HttpAuth.Guard(header, verify, StaffRoles).error)
    ensures r.Ok? <==> HttpAuth.Guard(header, verify, StaffRoles).Ok?
    ensures r.Ok? ==> |r.value| == Min(ListLimit, |store|)
    ensures r.Ok? ==> forall i :: 0 <= i < |r.value| ==> r.value[i].id in store && r.value[i] == ToPublic(store[r.value[i].id])
    ensures r.Ok? ==> forall i, j :: 0 <= i < j < |r.value| ==> r.value[i].id != r.value[j].id
    ensures r.Ok? ==> forall i, j :: 0 <= i < j < |r.value| ==> r.value[i].createdAt >= r.value[j].createdAt
    ensures r.Ok? ==> forall id, i :: id in store && 0 <= i < |r.value| && (forall j :: 0 <= j < |r.value| ==> r.value[j].id != id)
                        ==> store[id].createdAt <= r.value[i].createdAt
  {
    match HttpAuth.Guard(header, verify, StaffRoles)
    case Err(e) => r := Err(e);
    case Ok(_) =>
      NewerOrSameTotalPreorder();
      var keys := SortKeysBy(store, NewerOrSame);
      var n := Min(ListLimit, |keys|);
      var listed := seq(n, i requires 0 <= i < n => ToPublic(store[keys[i]]));
      ListingFacts(store, keys, listed);
      r := Ok(listed);
  }

  // ---------------------------------------------------------------------
  // Writes followed by broadcasts

  /** After a successful create, every connected staff socket is sent the
      stored order exactly once and no public socket is sent anything. */
  lemma CreateThenPublish(store: OrderStore, menu: Menu.MenuStore, raw: RawOrder, newId: string,
                          nano: string, now: int, reg: Registry, sid: SessionId)
    requires newId !in store && |nano| == 7
    requires CreateOrder(store, menu, raw, newId, nano, now).Ok?
    requires Valid(reg) && sid in reg.sessions
    ensures var w := CreateOrder(store, menu, raw, newId, nano, now).value;
            ReceivedBy(reg, sid, w.emits) ==
              if reg.sessions[sid].ns == StaffNs then [OrderCreated(ToPublic(w.store[newId]))] else []
  {
    var w := CreateOrder(store, menu, raw, newId, nano, now).value;
    assert w.order == ToPublic(w.store[newId]);
    assert w.emits == CreatedEmits(w.order);
    CreatedAudience(reg, sid, w.order);
  }

  /** After a successful status change, every staff socket and every public
      socket in the order's room is sent the stored order exactly once;
      other public sockets are sent nothing. */
  lemma UpdateThenPublish(store: OrderStore, header: Option<string>, verify: string -> Option<Claims>,
                          id: string, body: Value, now: int, reg: Registry, sid: SessionId)
    requires StoreWellFormed(store)
    requires UpdateStatus(store, header, verify, id, body, now).Ok?
    requires Valid(reg) && sid in reg.sessions
    ensures var w := UpdateStatus(store, header, verify, id, body, now).value;
            ReceivedBy(reg, sid, w.emits) ==
              if reg.sessions[sid].ns == StaffNs || OrderRoom(id) in reg.sessions[sid].rooms
              then [OrderUpdated(ToPublic(w.store[id]))] else []
  {
    var w := UpdateStatus(store, header, verify, id, body, now).value;
    assert w.order == ToPublic(w.store[id]) && w.order.id == id;
    UpdatedAudience(reg, sid, w.order);
  }

  /** Every order a route emits is already stored: fetching it by the id it
      carries returns exactly the emitted payload. */
  predicate EmitsPersisted(store: OrderStore, emits: seq<Emit>)
  {
    forall k :: 0 <= k < |emits| ==>
      !emits[k].event.StaffHello? && GetOrder(store, emits[k].event.order.id) == Ok(emits[k].event.order)
  }

  /** The create route writes before it broadcasts: the order in
      `orderCreated` can be fetched at once, as sent. */
  lemma CreatePersistsBeforeEmit(store: OrderStore, menu: Menu.MenuStore, raw: RawOrder,
                                 newId: string, nano: string, now: int)
    requires newId !in store && |nano| == 7
    ensures var r := CreateOrder(store, menu, raw, newId, nano, now);
            r.Ok? ==> |r.value.emits| == 1 && EmitsPersisted(r.value.store, r.value.emits)
                      && GetOrder(r.value.store, newId) == Ok(r.value.order)
  {
    var r := CreateOrder(store, menu, raw, newId, nano, now);
    if r.Ok? {
      var w := r.value;
      assert w.order == ToPublic(w.store[newId]) && w.order.id == newId;
      assert w.emits == [Emit(StaffNs, StaffRoom, OrderCreated(w.order))];
    }
  }

  /** The status route writes before it broadcasts: both `orderUpdated`
      emits carry the order as it can now be fetched. */
  lemma UpdatePersistsBeforeEmit(store: OrderStore, header: Option<string>, verify: string -> Option<Claims>,
                                 id: string, body: Value, now: int)
    requires StoreWellFormed(store)
    ensures var r := UpdateStatus(store, header, verify, id, body, now);
            r.Ok? ==> |r.value.emits| == 2 && EmitsPersisted(r.value.store, r.value.emits)
                      && GetOrder(r.value.store, id) == Ok(r.value.order)
  {
    var r := UpdateStatus(store, header, verify, id, body, now);
    if r.Ok? {
      var w := r.value;
      assert w.order == ToPublic(w.store[id]) && w.order.id == id;
      assert w.emits == [Emit(StaffNs, StaffRoom, OrderUpdated(w.order)),
                         Emit(OrdersNs, OrderRoom(w.order.id), OrderUpdated(w.order))];
    }
  }
}

=== FILE: realtime.dfy ===
/** The realtime channel: the staff namespace's handshake (token from the
    handshake auth field or the Authorization header, verification, role
    check), the room registry of connected sockets, the public namespace's
    `joinOrder` request, and the fan-out of an emit to a room.

    The event loop runs one handler at a time, so every operation here is a
    single step from one registry to the next. Socket.IO removes a socket
    from all of its rooms when it disconnects; that behaviour belongs to the
    library and is modelled as the explicit step `Disconnect`. */
module Realtime {
  import opened Common
  import opened Domain
  import HttpAuth

  type SessionId = string

  /** `/staff` needs a token; `/orders` is public. */
  datatype Namespace = StaffNs | OrdersNs

  /** A connected socket: its namespace, the user recorded by the handshake
      (staff namespace only) and the rooms it has joined. */
  datatype Session = Session(ns: Namespace, user: Option<Principal>, rooms: set<string>)

  datatype Registry = Registry(sessions: map<SessionId, Session>)

  datatype Event = StaffHello(role: string) | OrderCreated(order: PublicOrder) | OrderUpdated(order: PublicOrder)

  /** `io.of(ns).to(room).emit(event)`. */
  datatype Emit = Emit(ns: Namespace, room: string, event: Event)

  datatype Delivery = Delivery(to: SessionId, event: Event)

  const StaffRoom: string := "staff"
  const OrderRoomPrefix: string := "order:"

  function OrderRoom(orderId: string): string
  {
    OrderRoomPrefix + orderId
  }

  lemma OrderRoomInjective(x: string, y: string)
    ensures OrderRoom(x) == OrderRoom(y) <==> x == y
  {
    if OrderRoom(x) == OrderRoom(y) {
      assert x == OrderRoom(x)[6..];
      assert y == OrderRoom(y)[6..];
    }
  }

  const EmptyRegistry: Registry := Registry(map[])

  // ---------------------------------------------------------------------
  // Staff handshake

  /** The header begins with `bearer` in any letter case followed by at
      least one whitespace character: the pattern `^Bearer\s+` with the `i`
      flag. */
  predicate HasBearerScheme(h: string)
  {
    |h| >= 7 && EqualsIgnoreCase(h[..6], "bearer") && IsJsSpace(h[6])
  }

  /** Removes a leading `Bearer` scheme and all whitespace after it; any
      other header is kept verbatim. */
  function StripBearer(h: string): (r: string)
    ensures !HasBearerScheme(h) ==> r == h
    ensures HasBearerScheme(h) ==>
              && |r| <= |h| - 7
              && r == h[|h| - |r|..]
              && (forall i :: 6 <= i < |h| - |r| ==> IsJsSpace(h[i]))
              && (|r| > 0 ==> !IsJsSpace(r[0]))
  {
    if HasBearerScheme(h) then
      var r := TrimStart(h[6..]);
      TrimStartDropsBlanks(h[6..]);
      assert h[6..][|h[6..]| - |r|..] == h[|h| - |r|..];
      assert forall i :: 0 <= i < |h[6..]| - |r| ==> IsJsSpace(h[6..][i]);
      assert forall i :: 6 <= i < |h| - |r| ==> h[i] == h[6..][i - 6];
      r
    else h
  }

  /** The token the handshake verifies: the auth field when it is truthy,
      otherwise the Authorization header (or "") with its scheme stripped. */
  function SocketToken(authToken: Option<string>, header: Option<string>): (r: string)
    ensures Truthy(authToken) ==> r == authToken.value
    ensures !Truthy(authToken) ==> r == StripBearer(OrEmpty(header))
  {
    if Truthy(authToken) then authToken.value else StripBearer(OrEmpty(header))
  }

  /** The staff namespace middleware: an empty token is "Missing token",
      a token that does not verify is "Invalid token", a verified role other
      than admin or staff is "Forbidden", and otherwise the socket's user is
      `{id: sub, role}`. */
  function StaffHandshake(authToken: Option<string>, header: Option<string>,
                          verify: string -> Option<Claims>): (r: Result<Principal, string>)
    ensures r == Err("Missing token") <==> SocketToken(authToken, header) == ""
    ensures r == Err("Invalid token") <==>
              SocketToken(authToken, header) != "" && verify(SocketToken(authToken, header)).None?
    ensures r == Err("Forbidden") <==>
              var t := SocketToken(authToken, header);
              t != "" && verify(t).Some? && !IsStaffRole(verify(t).value.role)
    ensures r.Ok? ==> var c := verify(SocketToken(authToken, header)).value;
                      IsStaffRole(c.role) && r.value == Principal(c.sub, c.role)
  {
    var token := SocketToken(authToken, header);
    if token == "" then Err("Missing token")
    else match verify(token)
      case None => Err("Invalid token")
      case Some(c) =>
        if !IsStaffRole(c.role) then Err("Forbidden")
        else Ok(Principal(c.sub, c.role))
  }

  // ---------------------------------------------------------------------
  // Registry

  /** What the handlers guarantee of every connected socket: a staff socket
      was admitted with a staff role and sits in exactly the room "staff";
      a public socket has no user and sits only in rooms `order:<id>` with
      an id of at least six characters. */
  predicate SessionValid(s: Session)
  {
    match s.ns
    case StaffNs => s.user.Some? && IsStaffRole(s.user.value.role) && s.rooms == {StaffRoom}
    case OrdersNs => s.user.None? && forall room :: room in s.rooms ==> IsOrderRoom(room)
  }

  predicate IsOrderRoom(room: string)
  {
    |room| >= 12 && room[..6] == OrderRoomPrefix
  }

  ghost predicate Valid(reg: Registry)
  {
    forall sid :: sid in reg.sessions ==> SessionValid(reg.sessions[sid])
  }

  /** Socket `sid` is in room `room` of namespace `ns`. */
  predicate InRoom(reg: Registry, sid: SessionId, ns: Namespace, room: string)
  {
    sid in reg.sessions && reg.sessions[sid].ns == ns && room in reg.sessions[sid].rooms
  }

  datatype Connected = Connected(reg: Registry, outcome: Result<Principal, string>, deliveries: set<Delivery>)

  /** A socket connects to `/staff`: the handshake decides; an admitted
      socket records its user, joins "staff" and is sent `staffHello` with
      its role; a rejected one gets the reason as its connection error and
      leaves the registry as it was. */
  function ConnectStaff(reg: Registry, sid: SessionId, authToken: Option<string>, header: Option<string>,
                        verify: string -> Option<Claims>): (r: Connected)
    requires sid !in reg.sessions
    ensures r.outcome == StaffHandshake(authToken, header, verify)
    ensures r.outcome.Err? ==> r.reg == reg && r.deliveries == {}
    ensures r.outcome.Ok? ==>
              && r.reg.sessions.Keys == reg.sessions.Keys + {sid}
              && (forall other :: other in reg.sessions ==> r.reg.sessions[other] == reg.sessions[other])
              && InRoom(r.reg, sid, StaffNs, StaffRoom)
              && r.reg.sessions[sid].user == Some(r.outcome.value)
              && r.deliveries == {Delivery(sid, StaffHello(r.outcome.value.role))}
    ensures Valid(reg) ==> Valid(r.reg)
  {
    match StaffHandshake(authToken, header, verify)
    case Err(e) => Connected(reg, Err(e), {})
    case Ok(p) =>
      var reg' := Registry(reg.sessions[sid := Session(StaffNs, Some(p), {StaffRoom})]);
      Connected(reg', Ok(p), {Delivery(sid, StaffHello(p.role))})
  }

  /** A socket connects to `/orders`: no token, no user, no rooms. */
  function ConnectOrders(reg: Registry, sid: SessionId): (r: Registry)
    requires sid !in reg.sessions
    ensures r.sessions.Keys == reg.sessions.Keys + {sid}
    ensures forall other :: other in reg.sessions ==> r.sessions[other] == reg.sessions[other]
    ensures !InRoom(r, sid, StaffNs, StaffRoom) && r.sessions[sid].rooms == {}
    ensures Valid(reg) ==> Valid(r)
  {
    Registry(reg.sessions[sid := Session(OrdersNs, None, {})])
  }

  /** The `joinOrder` guard: only a string of more than five characters. */
  predicate AcceptsOrderId(payload: Value)
  {
    payload.Str? && |payload.s| > 5
  }

  /** `joinOrder(payload)` from socket `sid`. Only public sockets handle
      the message; an accepted id adds exactly the room `order:<id>`, and a
      rejected payload is ignored without any answer. */
  function JoinOrder(reg: Registry, sid: SessionId, payload: Value): (r: Registry)
    ensures r.sessions.Keys == reg.sessions.Keys
    ensures forall other :: other in reg.sessions && other != sid ==> r.sessions[other] == reg.sessions[other]
    ensures sid in reg.sessions ==>
              var s := reg.sessions[sid];
              && r.sessions[sid].ns == s.ns && r.sessions[sid].user == s.user
              && (if s.ns == OrdersNs && AcceptsOrderId(payload)
                  then r.sessions[sid].rooms == s.rooms + {OrderRoom(payload.s)}
                  else r.sessions[sid].rooms == s.rooms)
    ensures Valid(reg) ==> Valid(r)
  {
    if sid in reg.sessions && reg.sessions[sid].ns == OrdersNs && AcceptsOrderId(payload) then
      var s := reg.sessions[sid];
      Registry(reg.sessions[sid := s.(rooms := s.rooms + {OrderRoom(payload.s)})])
    else reg
  }

  /** The socket goes away and with it every room membership it held. */
  function Disconnect(reg: Registry, sid: SessionId): (r: Registry)
    ensures sid !in r.sessions
    ensures r.sessions.Keys == reg.sessions.Keys - {sid}
    ensures forall other :: other in r.sessions ==> r.sessions[other] == reg.sessions[other]
    ensures forall ns, room :: !InRoom(r, sid, ns, room)
    ensures Valid(reg) ==> Valid(r)
  {
    Registry(reg.sessions - {sid})
  }

  // ---------------------------------------------------------------------
  // Publishing

  /** Fan-out of one emit over the registry, one dispatch per connected
      socket that is a member of the room: exactly the sockets whose
      received sequence for that emit alone is its event. */
  method FanOut(reg: Registry, e: Emit) returns (ds: set<Delivery>)
    ensures forall d :: d in ds <==> d.event == e.event && InRoom(reg, d.to, e.ns, e.room)
    ensures forall sid, ev :: Delivery(sid, ev) in ds <==> ReceivedBy(reg, sid, [e]) == [ev]
  {
    ds := {};
    var todo := reg.sessions.Keys;
    while todo != {}
      invariant todo <= reg.sessions.Keys
      invariant forall d :: d in ds <==>
                  d.event == e.event && d.to in reg.sessions.Keys - todo && InRoom(reg, d.to, e.ns, e.room)
      decreases todo
    {
      var sid :| sid in todo;
      if InRoom(reg, sid, e.ns, e.room) {
        ds := ds + {Delivery(sid, e.event)};
      }
      todo := todo - {sid};
    }
    forall sid, ev ensures Delivery(sid, ev) in ds <==> ReceivedBy(reg, sid, [e]) == [ev] {
      assert [e][1..] == [];
      assert ReceivedBy(reg, sid, [e]) == if InRoom(reg, sid, e.ns, e.room) then [e.event] else [];
    }
  }

  /** The events socket `sid` is sent, in order, when `emits` are emitted
      one after another. */
  function ReceivedBy(reg: Registry, sid: SessionId, emits: seq<Emit>): (r: seq<Event>)
    ensures |r| <= |emits|
    ensures forall ev :: ev in r ==> exists e :: e in emits && e.event == ev && InRoom(reg, sid, e.ns, e.room)
    ensures |emits| == 1 ==> (r == [emits[0].event] <==> InRoom(reg, sid, emits[0].ns, emits[0].room))
  {
    if |emits| == 0 then []
    else
      var head := if InRoom(reg, sid, emits[0].ns, emits[0].room) then [emits[0].event] else [];
      var rest := ReceivedBy(reg, sid, emits[1..]);
      assert forall e :: e in emits[1..] ==> e in emits;
      head + rest
  }

  lemma {:induction false} ReceivedByAppend(reg: Registry, sid: SessionId, a: seq<Emit>, b: seq<Emit>)
    ensures ReceivedBy(reg, sid, a + b) == ReceivedBy(reg, sid, a) + ReceivedBy(reg, sid, b)
  {
    if |a| > 0 {
      assert (a + b)[1..] == a[1..] + b;
      ReceivedByAppend(reg, sid, a[1..], b);
    } else {
      assert a + b == b;
    }
  }

  /** The emits of the create route: the new order to room "staff" of
      `/staff`, and nowhere else. */
  function CreatedEmits(p: PublicOrder): seq<Emit>
  {
    [Emit(StaffNs, StaffRoom, OrderCreated(p))]
  }

  /** The emits of the status route: the same payload to room "staff" of
      `/staff`, then to room `order:<id>` of `/orders`. */
  function UpdatedEmits(p: PublicOrder): seq<Emit>
  {
    [Emit(StaffNs, StaffRoom, OrderUpdated(p)), Emit(OrdersNs, OrderRoom(p.id), OrderUpdated(p))]
  }

  /** Every staff socket gets exactly one `orderCreated` per created order,
      and no public socket gets any. */
  lemma CreatedAudience(reg: Registry, sid: SessionId, p: PublicOrder)
    requires Valid(reg) && sid in reg.sessions
    ensures ReceivedBy(reg, sid, CreatedEmits(p)) ==
              if reg.sessions[sid].ns == StaffNs then [OrderCreated(p)] else []
  {
    var s := reg.sessions[sid];
    assert SessionValid(s);
    if s.ns == OrdersNs {
      assert !IsOrderRoom(StaffRoom);
    }
  }

  /** Every staff socket, and exactly those public sockets that joined the
      order's room, get exactly one `orderUpdated` per status change. */
  lemma UpdatedAudience(reg: Registry, sid: SessionId, p: PublicOrder)
    requires Valid(reg) && sid in reg.sessions
    ensures ReceivedBy(reg, sid, UpdatedEmits(p)) ==
              if reg.sessions[sid].ns == StaffNs || OrderRoom(p.id) in reg.sessions[sid].rooms
              then [OrderUpdated(p)] else []
  {
    var s := reg.sessions[sid];
    assert SessionValid(s);
    var es := UpdatedEmits(p);
    assert ReceivedBy(reg, sid, es[1..][1..]) == [];
    if s.ns == StaffNs {
      assert OrderRoom(p.id) != StaffRoom by { assert OrderRoom(p.id)[0] != StaffRoom[0]; }
    }
  }

  /** A public socket that joined only other orders' rooms hears nothing of
      this order. */
  lemma OtherOrderSilent(reg: Registry, sid: SessionId, p: PublicOrder)
    requires Valid(reg) && sid in reg.sessions && reg.sessions[sid].ns == OrdersNs
    requires forall room :: room in reg.sessions[sid].rooms ==> exists y :: y != p.id && room == OrderRoom(y)
    ensures ReceivedBy(reg, sid, UpdatedEmits(p)) == []
    ensures ReceivedBy(reg, sid, CreatedEmits(p)) == []
  {
    UpdatedAudience(reg, sid, p);
    CreatedAudience(reg, sid, p);
    forall room | room in reg.sessions[sid].rooms ensures room != OrderRoom(p.id) {
      var y :| y != p.id && room == OrderRoom(y);
      OrderRoomInjective(p.id, y);
    }
  }

  /** Only sockets admitted with a staff role are ever in room "staff", so
      nothing emitted there reaches anyone else. */
  lemma StaffRoomPrivileged(reg: Registry, sid: SessionId, ns: Namespace)
    requires Valid(reg) && InRoom(reg, sid, ns, StaffRoom)
    ensures ns == StaffNs
    ensures reg.sessions[sid].user.Some? && IsStaffRole(reg.sessions[sid].user.value.role)
  {
    assert SessionValid(reg.sessions[sid]);
    assert !IsOrderRoom(StaffRoom);
  }

  /** After a socket disconnects it is sent nothing, whatever is emitted. */
  lemma {:induction false} DisconnectSilences(reg: Registry, sid: SessionId, emits: seq<Emit>)
    ensures ReceivedBy(Disconnect(reg, sid), sid, emits) == []
  {
    if |emits| > 0 {
      DisconnectSilences(reg, sid, emits[1..]);
    }
  }

  /** Joining the same order twice leaves the registry as joining once. */
  lemma JoinIdempotent(reg: Registry, sid: SessionId, payload: Value)
    ensures JoinOrder(JoinOrder(reg, sid, payload), sid, payload) == JoinOrder(reg, sid, payload)
  {
    var r1 := JoinOrder(reg, sid, payload);
    if sid in reg.sessions && reg.sessions[sid].ns == OrdersNs && AcceptsOrderId(payload) {
      var s1 := r1.sessions[sid];
      assert s1.rooms + {OrderRoom(payload.s)} == s1.rooms;
      assert r1.sessions[sid := s1] == r1.sessions;
    }
  }

  /** Two status changes of one order reach a public socket in that order's
      room in the order they were made, once each. */
  lemma UpdatesInOrder(reg: Registry, sid: SessionId, p1: PublicOrder, p2: PublicOrder)
    requires Valid(reg) && sid in reg.sessions && p1.id == p2.id
    requires OrderRoom(p1.id) in reg.sessions[sid].rooms
    ensures ReceivedBy(reg, sid, UpdatedEmits(p1) + UpdatedEmits(p2)) == [OrderUpdated(p1), OrderUpdated(p2)]
  {
    ReceivedByAppend(reg, sid, UpdatedEmits(p1), UpdatedEmits(p2));
    UpdatedAudience(reg, sid, p1);
    UpdatedAudience(reg, sid, p2);
  }

  // ---------------------------------------------------------------------
  // The socket handshake and the HTTP gate read the same header differently

  /** For a header of exactly `Bearer ` and a token that does not start
      with whitespace, both paths verify the same token, so the staff
      namespace admits the header exactly when the staff routes do. */
  lemma HeaderParsingAgrees(t: string, verify: string -> Option<Claims>)
    requires t != "" && !IsJsSpace(t[0])
    ensures SocketToken(None, Some(HttpAuth.BearerPrefix + t)) == t
    ensures HttpAuth.BearerToken(Some(HttpAuth.BearerPrefix + t)) == Some(t)
    ensures StaffHandshake(None, Some(HttpAuth.BearerPrefix + t), verify).Ok? <==>
              HttpAuth.Guard(Some(HttpAuth.BearerPrefix + t), verify, StaffRoles).Ok?
  {
    var h := HttpAuth.BearerPrefix + t;
    assert h[..6] == "Bearer";
    assert HasBearerScheme(h);
    assert h[6..] == [' '] + t;
    assert h[7..] == t;
  }

  /** The pattern takes the scheme and the whole whitespace run after it:
      what is left is the token. */
  lemma {:induction false} StripBearerOf(scheme: string, ws: string, t: string)
    requires EqualsIgnoreCase(scheme, "bearer")
    requires |ws| > 0 && forall i :: 0 <= i < |ws| ==> IsJsSpace(ws[i])
    requires t == "" || !IsJsSpace(t[0])
    ensures StripBearer(scheme + ws + t) == t
  {
    var h := scheme + ws + t;
    assert h[..6] == scheme;
    assert h[6] == ws[0];
    assert h[6..] == ws + t;
    TrimStartSkips(ws, t);
  }

  lemma {:induction false} TrimStartSkips(ws: string, t: string)
    requires forall i :: 0 <= i < |ws| ==> IsJsSpace(ws[i])
    requires t == "" || !IsJsSpace(t[0])
    ensures TrimStart(ws + t) == t
  {
    if |ws| > 0 {
      assert (ws + t)[1..] == ws[1..] + t;
      TrimStartSkips(ws[1..], t);
    } else {
      assert ws + t == t;
    }
  }

  lemma StripLowerCase()
    ensures StripBearer("bearer abc") == "abc"
  {
    StripBearerOf("bearer", " ", "abc");
    assert "bearer" + " " + "abc" == "bearer abc";
  }

  lemma StripExtraWhitespace()
    ensures StripBearer("Bearer \tabc") == "abc"
  {
    StripBearerOf("Bearer", " \t", "abc");
    assert "Bearer" + " \t" + "abc" == "Bearer \tabc";
  }

  /** A lower-case scheme: the socket path strips it, the HTTP path finds
      no token. */
  lemma LowerCaseSchemeDiffers(verify: string -> Option<Claims>)
    ensures SocketToken(None, Some("bearer abc")) == "abc"
    ensures HttpAuth.AuthRequired(Some("bearer abc"), verify) == Err(HttpAuth.MissingToken)
  {
    StripLowerCase();
    assert "bearer abc"[0] != HttpAuth.BearerPrefix[0];
  }

  /** More whitespace after the scheme: the socket path drops all of it,
      the HTTP path keeps all but the first space as part of the token. */
  lemma ExtraWhitespaceDiffers()
    ensures SocketToken(None, Some("Bearer \tabc")) == "abc"
    ensures HttpAuth.BearerToken(Some("Bearer \tabc")) == Some("\tabc")
  {
    StripExtraWhitespace();
    assert "Bearer \tabc"[..7] == HttpAuth.BearerPrefix;
  }

  /** No scheme at all: the socket path verifies the header as it is, the
      HTTP path finds no token. */
  lemma NoSchemeDiffers(verify: string -> Option<Claims>)
    ensures SocketToken(None, Some("abc")) == "abc"
    ensures HttpAuth.AuthRequired(Some("abc"), verify) == Err(HttpAuth.MissingToken)
  {
    assert !HasBearerScheme("abc");
  }

  // ---------------------------------------------------------------------
  // Scenarios

  /** A staff user connects, an order "abc123" is created, and the socket
      is sent that one `orderCreated`. */
  lemma StaffSeesCreatedOrder(p: PublicOrder)
    requires p.id == "abc123"
    ensures var verify := (t: string) => if t == "tok" then Some(Claims("u1", "staff")) else None;
            var c := ConnectStaff(EmptyRegistry, "s1", Some("tok"), None, verify);
            && c.outcome == Ok(Principal("u1", "staff"))
            && ReceivedBy(c.reg, "s1", CreatedEmits(p)) == [OrderCreated(p)]
  {
    var verify := (t: string) => if t == "tok" then Some(Claims("u1", "staff")) else None;
    var c := ConnectStaff(EmptyRegistry, "s1", Some("tok"), None, verify);
    assert c.outcome == Ok(Principal("u1", "staff"));
    assert Valid(c.reg);
    CreatedAudience(c.reg, "s1", p);
  }

  /** A customer joins "ord_000001" and hears nothing of "ord_000002". */
  lemma CustomerIgnoresOtherOrder(p: PublicOrder)
    requires p.id == "ord_000002"
    ensures var reg := JoinOrder(ConnectOrders(EmptyRegistry, "c1"), "c1", Str("ord_000001"));
            ReceivedBy(reg, "c1", UpdatedEmits(p)) == []
  {
    var reg := JoinOrder(ConnectOrders(EmptyRegistry, "c1"), "c1", Str("ord_000001"));
    assert reg.sessions["c1"].rooms == {OrderRoom("ord_000001")};
    assert "ord_000001" != p.id by { assert "ord_000001"[9] != p.id[9]; }
    OtherOrderSilent(reg, "c1", p);
  }

  /** A credential that no longer verifies is turned away with
      "Invalid token" and the socket never joins a room. */
  lemma ExpiredTokenRejected(reg: Registry, sid: SessionId, token: string, verify: string -> Option<Claims>)
    requires sid !in reg.sessions && token != "" && verify(token).None?
    ensures ConnectStaff(reg, sid, Some(token), None, verify).outcome == Err("Invalid token")
    ensures ConnectStaff(reg, sid, Some(token), None, verify).reg == reg
  {
  }
}

=== FILE: sorting.dfy ===
/** Ordering the records of a keyed store, which is what a database query
    with a `sort` clause hands back. The records are addressed by key and
    compared through their values with a total preorder; records that
    compare equal may come out in any order. */
module Sorting {
  import opened Common

  ghost predicate TotalPreorder<T(!new)>(le: (T, T) -> bool)
  {
    && (forall a, b :: le(a, b) || le(b, a))
    && (forall a, b, c :: le(a, b) && le(b, c) ==> le(a, c))
  }

  /** Every key of `ks` is stored, and their records are in `le` order. */
  ghost predicate SortedBy<K, T>(ks: seq<K>, m: map<K, T>, le: (T, T) -> bool)
  {
    && (forall i :: 0 <= i < |ks| ==> ks[i] in m)
    && (forall i, j :: 0 <= i < j < |ks| ==> le(m[ks[i]], m[ks[j]]))
  }

  /** Inserts key `k` into the sorted key list `ks` before the first key
      whose record `k`'s record does not come after. */
  function InsertKey<K(!new), T(!new)>(ks: seq<K>, k: K, m: map<K, T>, le: (T, T) -> bool): (r: seq<K>)
    requires TotalPreorder(le)
    requires k in m && SortedBy(ks, m, le)
    ensures |r| == |ks| + 1
    ensures forall x :: x in r <==> x in ks || x == k
    ensures SortedBy(r, m, le)
    ensures Distinct(ks) && k !in ks ==> Distinct(r)
  {
    if |ks| == 0 then [k]
    else if le(m[k], m[ks[0]]) then
      assert forall j :: 0 <= j < |ks| ==> le(m[k], m[ks[j]]) by {
        forall j | 0 <= j < |ks|
          ensures le(m[k], m[ks[j]])
        {
          if j > 0 {
            assert le(m[ks[0]], m[ks[j]]);
          }
        }
      }
      SortedCons(k, ks, m, le);
      assert Distinct(ks) && k !in ks ==> Distinct([k] + ks) by {
        if Distinct(ks) && k !in ks {
          DistinctCons(k, ks);
        }
      }
      [k] + ks
    else
      var rest := InsertKey(ks[1..], k, m, le);
      assert le(m[ks[0]], m[k]);
      assert forall x :: x in rest ==> le(m[ks[0]], m[x]) && (x == k || x in ks[1..]) by {
        forall x | x in rest ensures le(m[ks[0]], m[x]) && (x == k || x in ks[1..]) {
          if x != k {
            var j :| 0 <= j < |ks[1..]| && ks[1..][j] == x;
            assert ks[j + 1] == x;
          }
        }
      }
      assert forall j :: 0 <= j < |rest| ==> le(m[ks[0]], m[rest[j]]);
      SortedCons(ks[0], rest, m, le);
      assert Distinct(ks) && k !in ks ==> Distinct([ks[0]] + rest) by {
        if Distinct(ks) && k !in ks {
          assert ks[0] !in ks[1..];
          DistinctCons(ks[0], rest);
        }
      }
      [ks[0]] + rest
  }

  /** A key whose record comes no later than any record of a sorted list
      can lead it. */
  lemma SortedCons<K, T>(x: K, ks: seq<K>, m: map<K, T>, le: (T, T) -> bool)
    requires x in m && SortedBy(ks, m, le)
    requires forall j :: 0 <= j < |ks| ==> le(m[x], m[ks[j]])
    ensures SortedBy([x] + ks, m, le)
  {
    var r := [x] + ks;
    assert forall j :: 1 <= j < |r| ==> r[j] == ks[j - 1];
  }

  lemma DistinctCons<K>(x: K, ks: seq<K>)
    requires Distinct(ks) && x !in ks
    ensures Distinct([x] + ks)
  {
    var r := [x] + ks;
    assert forall j :: 1 <= j < |r| ==> r[j] == ks[j - 1];
  }

  /** All keys of `m`, each once, in `le` order of their records. */
  method SortKeysBy<K(!new), T(!new)>(m: map<K, T>, le: (T, T) -> bool) returns (ks: seq<K>)
    requires TotalPreorder(le)
    ensures forall k :: k in ks <==> k in m
    ensures Distinct(ks) && |ks| == |m|
    ensures SortedBy(ks, m, le)
  {
    ks := [];
    var todo := m.Keys;
    while todo != {}
      invariant todo <= m.Keys
      invariant forall k :: k in ks <==> k in m.Keys - todo
      invariant Distinct(ks) && |ks| == |m.Keys - todo|
      invariant SortedBy(ks, m, le)
      decreases todo
    {
      var k :| k in todo;
      assert m.Keys - (todo - {k}) == (m.Keys - todo) + {k};
      ks := InsertKey(ks, k, m, le);
      todo := todo - {k};
    }
    assert m.Keys - todo == m.Keys;
  }
}

=== FILE: staffboard.dfy ===
/** The staff dashboard's live queue: the status filter, the list updates
    for `orderCreated` and `orderUpdated`, and the merge of a status
    change's answer. The board holds the orders newest first as the server
    listed them, and at most 50 after every live insertion. */
module StaffBoard {
  import opened Common
  import opened Domain
  import Orders
  import HttpAuth

  const BoardLimit: nat := 50

  const LoadFailed: string := "Failed to load staff orders"
  const UpdateFailed: string := "Failed to update status"

  /** The selector: "ALL" or one of the five statuses. */
  datatype Filter = All | Only(status: Status)

  predicate Shows(f: Filter, o: PublicOrder)
  {
    f.All? || o.status == f.status
  }

  /** The orders the board shows under a filter. */
  function Filtered(orders: seq<PublicOrder>, f: Filter): (r: seq<PublicOrder>)
    ensures |r| <= |orders|
    ensures forall i :: 0 <= i < |r| ==> Shows(f, r[i])
  {
    if |orders| == 0 then []
    else (if Shows(f, orders[0]) then [orders[0]] else []) + Filtered(orders[1..], f)
  }

  /** "ALL" is the list itself. */
  lemma {:induction false} FilterAllIsIdentity(orders: seq<PublicOrder>)
    ensures Filtered(orders, All) == orders
  {
    if |orders| > 0 {
      FilterAllIsIdentity(orders[1..]);
      assert orders == [orders[0]] + orders[1..];
    }
  }

  /** A status filter keeps exactly the orders of that status, each as
      often as in the list. */
  lemma {:induction false} FilterCounts(orders: seq<PublicOrder>, f: Filter, x: PublicOrder)
    ensures multiset(Filtered(orders, f))[x] == if Shows(f, x) then multiset(orders)[x] else 0
  {
    if |orders| > 0 {
      FilterCounts(orders[1..], f, x);
      assert orders == [orders[0]] + orders[1..];
    }
  }

  /** Filtering distributes over concatenation, so the shown orders keep
      their relative order. */
  lemma {:induction false} FilterAppend(a: seq<PublicOrder>, b: seq<PublicOrder>, f: Filter)
    ensures Filtered(a + b, f) == Filtered(a, f) + Filtered(b, f)
  {
    if |a| == 0 {
      assert a + b == b;
    } else {
      assert (a + b)[1..] == a[1..] + b;
      FilterAppend(a[1..], b, f);
    }
  }

  /** `orderCreated`: the new order in front, the list cut to 50. */
  function OnOrderCreated(orders: seq<PublicOrder>, o: PublicOrder): (r: seq<PublicOrder>)
    ensures |r| <= BoardLimit
  {
    ([o] + orders)[..Min(BoardLimit, |orders| + 1)]
  }

  /** The new order heads the board; the previous entries follow in order,
      the oldest beyond the 50th dropped. */
  lemma CreatedHeadsBoard(orders: seq<PublicOrder>, o: PublicOrder)
    ensures var r := OnOrderCreated(orders, o);
            && |r| == Min(BoardLimit, |orders| + 1) && r[0] == o
            && (forall i :: 1 <= i < |r| ==> r[i] == orders[i - 1])
  {
  }

  /** Replace every entry with id `id` by `o`. */
  function ReplaceById(orders: seq<PublicOrder>, id: string, o: PublicOrder): (r: seq<PublicOrder>)
    ensures |r| == |orders|
  {
    seq(|orders|, i requires 0 <= i < |orders| => if orders[i].id == id then o else orders[i])
  }

  /** `orderUpdated`: the entry for the order, if shown, becomes the event's
      payload. */
  function OnOrderUpdated(orders: seq<PublicOrder>, o: PublicOrder): (r: seq<PublicOrder>)
    ensures |r| == |orders|
    ensures forall i :: 0 <= i < |r| ==> (r[i] == o <== orders[i].id == o.id)
    ensures forall i :: 0 <= i < |r| && orders[i].id != o.id ==> r[i] == orders[i]
    ensures forall i :: 0 <= i < |r| ==> r[i].id == orders[i].id
  {
    ReplaceById(orders, o.id, o)
  }

  /** An update for an order the board does not show is dropped, not
      inserted. */
  lemma UnknownUpdateIgnored(orders: seq<PublicOrder>, o: PublicOrder)
    requires forall i :: 0 <= i < |orders| ==> orders[i].id != o.id
    ensures OnOrderUpdated(orders, o) == orders
  {
  }

  /** Of two updates for the same order the later one wins, whatever the
      first one carried. */
  lemma LaterUpdateWins(orders: seq<PublicOrder>, o1: PublicOrder, o2: PublicOrder)
    requires o1.id == o2.id
    ensures OnOrderUpdated(OnOrderUpdated(orders, o1), o2) == OnOrderUpdated(orders, o2)
  {
  }

  /** Updates for different orders commute. */
  lemma UpdatesCommute(orders: seq<PublicOrder>, o1: PublicOrder, o2: PublicOrder)
    requires o1.id != o2.id
    ensures OnOrderUpdated(OnOrderUpdated(orders, o1), o2) == OnOrderUpdated(OnOrderUpdated(orders, o2), o1)
  {
  }

  /** The dashboard's state: the orders and the error line. */
  datatype Board = Board(orders: seq<PublicOrder>, error: Option<string>)

  /** A failed request's answer: the server's message, if it sent one. */
  datatype Answer<T> = Answered(value: T) | Failed(message: Option<string>)

  /** `err?.response?.data?.message ?? fallback`: only a missing message
      falls back; an empty one is shown as it is. */
  function MessageOr(message: Option<string>, fallback: string): string
  {
    if message.Some? then message.value else fallback
  }

  /** The initial load of `GET /staff/orders`. */
  function OnLoad(b: Board, answer: Answer<seq<PublicOrder>>): (r: Board)
    ensures answer.Answered? ==> r == Board(answer.value, None)
    ensures answer.Failed? ==> r.orders == b.orders && r.error == Some(MessageOr(answer.message, LoadFailed))
  {
    match answer
    case Answered(list) => Board(list, None)
    case Failed(m) => Board(b.orders, Some(MessageOr(m, LoadFailed)))
  }

  /** The dashboard's first load against the server's listing: with the
      staff gate passed the board becomes the listing, at most 50 orders
      and the error cleared; otherwise it keeps its orders and shows the
      gate's message. */
  method LoadFromServer(b: Board, store: Orders.OrderStore, header: Option<string>,
                        verify: string -> Option<Claims>) returns (r: Board)
    requires forall id :: id in store ==> store[id].id == id
    ensures HttpAuth.Guard(header, verify, StaffRoles).Ok? ==>
              r.error.None? && |r.orders| == Min(BoardLimit, |store|)
              && forall i :: 0 <= i < |r.orders| ==> r.orders[i].id in store
    ensures HttpAuth.Guard(header, verify, StaffRoles).Err? ==>
              r.orders == b.orders && r.error == Some(HttpAuth.Guard(header, verify, StaffRoles).error.message)
  {
    var answer := Orders.StaffOrders(store, header, verify);
    match answer
    case Ok(list) => r := OnLoad(b, Answered(list));
    case Err(e) => r := OnLoad(b, Failed(Some(e.message)));
  }

  /** Whatever the load answered, the board then stays within 50 orders
      through any run of live events, provided a failed load leaves a
      board that already was. */
  lemma LoadedBoardStaysBounded(b: Board, answer: Answer<seq<PublicOrder>>, events: seq<LiveEvent>)
    requires |b.orders| <= BoardLimit
    requires answer.Answered? ==> |answer.value| <= BoardLimit
    ensures |Replay(OnLoad(b, answer).orders, events)| <= BoardLimit
  {
    ReplayBounded(OnLoad(b, answer).orders, events);
  }

  /** `updateStatus(orderId, …)` once its request settles: the answer's order
      replaces the entries with the requested id, or the error line shows
      why it failed. */
  function OnStatusAnswer(b: Board, orderId: string, answer: Answer<PublicOrder>): (r: Board)
    ensures |r.orders| == |b.orders|
    ensures answer.Answered? ==>
              && r.error.None?
              && forall i :: 0 <= i < |b.orders| ==>
                   r.orders[i] == (if b.orders[i].id == orderId then answer.value else b.orders[i])
    ensures answer.Failed? ==> r.orders == b.orders && r.error == Some(MessageOr(answer.message, UpdateFailed))
  {
    match answer
    case Answered(o) => Board(ReplaceById(b.orders, orderId, o), None)
    case Failed(m) => Board(b.orders, Some(MessageOr(m, UpdateFailed)))
  }

  /** The status change's answer and its `orderUpdated` echo carry the same
      order with the requested id, so the board ends the same whichever
      arrives first, and the same as if only one had arrived. */
  lemma AnswerAndEchoAgree(b: Board, o: PublicOrder)
    ensures OnStatusAnswer(b, o.id, Answered(o)).orders == OnOrderUpdated(b.orders, o)
    ensures OnOrderUpdated(OnStatusAnswer(b, o.id, Answered(o)).orders, o) == OnOrderUpdated(b.orders, o)
    ensures OnStatusAnswer(Board(OnOrderUpdated(b.orders, o), b.error), o.id, Answered(o)).orders
              == OnOrderUpdated(b.orders, o)
  {
  }

  /** A live event on the staff socket. */
  datatype LiveEvent = Created(order: PublicOrder) | Updated(order: PublicOrder)

  function Apply(orders: seq<PublicOrder>, e: LiveEvent): seq<PublicOrder>
  {
    match e
    case Created(o) => OnOrderCreated(orders, o)
    case Updated(o) => OnOrderUpdated(orders, o)
  }

  /** The board after a run of live events, oldest first. */
  function Replay(orders: seq<PublicOrder>, events: seq<LiveEvent>): seq<PublicOrder>
    decreases |events|
  {
    if |events| == 0 then orders else Replay(Apply(orders, events[0]), events[1..])
  }

  /** The board never holds more than 50 orders: the server's list is cut
      at 50 and no live event takes it past that. */
  lemma {:induction false} ReplayBounded(orders: seq<PublicOrder>, events: seq<LiveEvent>)
    requires |orders| <= BoardLimit
    ensures |Replay(orders, events)| <= BoardLimit
    decreases |events|
  {
    if |events| > 0 {
      ReplayBounded(Apply(orders, events[0]), events[1..]);
    }
  }

  /** Updates alone never change which orders the board lists or their
      positions, only their contents. */
  lemma {:induction false} UpdatesKeepIds(orders: seq<PublicOrder>, events: seq<LiveEvent>)
    requires forall k :: 0 <= k < |events| ==> events[k].Updated?
    ensures |Replay(orders, events)| == |orders|
    ensures forall i :: 0 <= i < |orders| ==> Replay(orders, events)[i].id == orders[i].id
    decreases |events|
  {
    if |events| > 0 {
      var next := Apply(orders, events[0]);
      UpdatesKeepIds(next, events[1..]);
    }
  }
}
